=== FILE: README.md ===
# Machine monitoring view, modelled in Dafny

This project models the state and collection logic of mist.io's machine
monitoring view (`src/mist/io/static/js/app/views/machine_monitoring.js`). That
view is an Ember view showing one machine's monitoring rules, metrics and
graphs.

The view holds three collections: `rules`, `metrics` and `graphs`. It keeps them
in step with the rules and metrics controllers. It persists each graph's
position and visibility in a cookie entry, and it drives the enable, disable and
remove flows through dialogs and controller callbacks. Everything here is a pure
function over immutable records:

- `Model`: the records. These are `Machine`, `Rule`, `Metric`, `Datasource`,
  `Graph` and the persisted `GraphPref`, plus the `View` itself and `Call`, the
  calls the view makes on the controllers around it. `Env` holds the
  collaborators whose code is not part of this model. Each one is an
  uninterpreted function:
  - `Machine.equals`;
  - whether the view's machine has an `equals` at all;
  - `Metric.hasMachine`;
  - the datasource id as a function of the (metric id, machine id) pair;
  - the cookie controller's per-graph entry lookup.
- `Collections`: the two primitives the view is built on.
  - `AddMissing` is a `forEach` that appends with `pushObject` whenever `findBy('id', …)` finds nothing.
  - `RemoveAll` is `removeObject`.
- `Reconcile`: `_updateGraphs`, one pass over the metrics that appends a graph
  for each datasource no graph holds yet. It pauses the stream once per added
  graph and, only if it was streaming and some graph was added, resumes it once
  at the end.
- `Preferences`: `collapseClicked` and `graphButtonClicked` on the cookie
  entry's per-graph preferences.
- `Events`: `_clear`, `_updateRules`, `_updateMetrics` and the four rule and
  metric event handlers.
- `Flows`: `enableMonitoringClicked` (with the manual-command and confirmation
  paths), `disableMonitoringClicked` and `removeClicked`. Each flow maps the
  session flags, the user's dialog answers and the controllers' callback results
  to the calls made, in order, and to the flags left behind.
- `Lifecycle`: the registrations `load` makes and `unload` takes back, then
  `showMonitoring`, `hideMonitoring`, `_showGraphs`, `_hideGraphs`, the
  `sortBy('index')` they use, and `hasMonitoringObserver`.

JavaScript object identity (what `pushObject`, `removeObject` and `===` compare)
is modelled as value equality of records. A controller callback becomes a
boolean input, and a callback that never fires is not modelled. Each
reconciliation pass is atomic.

Behaviour of the code that the model keeps as written:

- `_ruleAdded` and `_metricAdded` push with no presence check, so adding is not
  idempotent: each accepted event adds one more copy (`Events.RuleAdded`,
  `Events.MetricAdded`).
- In the removal chain, only a failed disable of a plugin metric resets
  `pendingRemoval`. A failed disassociation leaves it set (see Findings).
- `_metricDeleted` applies no machine filter. It removes the metric whichever
  machine the event names (`Events.MetricDeleted`).
- Collapsing renumbers only the entries above the collapsed one, so after two
  collapses the first-collapsed graph sits one below the last index
  (`Preferences.CollapseTwiceExample`). A collapse keeps the indices a
  permutation and keeps visible graphs ahead of hidden ones. Expanding keeps the
  permutation but moves no index, so it can leave a visible graph behind a
  hidden one (`Preferences.ExpandAfterCollapsesExample`).
- `load` registers the metric deletion handler for the event `onMetricDelte`,
  and nothing for `onMetricDelete` (`Lifecycle.LoadedMetricDeletion`). The
  metrics controller is not part of this model, so whether `onMetricDelte` is
  ever emitted is left open.
- A new graph reads its cookie entry unconditionally, twice: `isHidden` first,
  then `index` of the graph with `isHidden` already set (`Reconcile.NewGraph`,
  through the uninterpreted lookup).

## Model

| member | source | states |
|---|---|---|
| Collections.AddMissing | src/mist/io/static/js/app/views/machine_monitoring.js:451-457 | the pushObject-if-findBy-fails loop keeps the old list as a prefix; every appended element comes from the source and is selected; the ids afterwards are exactly the old ids plus every selected source id; ids stay unique |
| Collections.AddMissingCovers | src/mist/io/static/js/app/views/machine_monitoring.js:451-457 | every selected element's id is present after the loop |
| Collections.RemoveAll | src/mist/io/static/js/app/views/machine_monitoring.js:517-521 | removeObject drops every occurrence of the object and nothing else (as a multiset); an absent object changes nothing |
| Collections.RemoveAllInOrder | src/mist/io/static/js/app/views/machine_monitoring.js:517-521 | removeObject keeps what stays in its order: the result is the list read at exactly the positions not holding the object, in increasing order |
| Collections.RemoveAppended | src/mist/io/static/js/app/views/machine_monitoring.js:510-521 | removing an object just pushed onto a list that did not hold it gives the list back |
| Reconcile.HeldIdsMeaning | src/mist/io/static/js/app/views/machine_monitoring.js:483-486 | the ids the model calls held are exactly those `graphs.some(g => g.datasources.findBy('id', …))` finds |
| Reconcile.NewGraph | src/mist/io/static/js/app/views/machine_monitoring.js:491-497 | a new graph is titled with the metric name, holds the one datasource for the metric and machine, and is not pending removal; isHidden comes from the lookup on the graph as created at the metric's position, then index from the lookup on the graph with that isHidden set |
| Reconcile.AddGraphs | src/mist/io/static/js/app/views/machine_monitoring.js:478-500 | the forEach keeps the existing graphs in order as a prefix; afterwards the held ids are the old ones plus every visited metric's datasource id, even when metrics repeat |
| Reconcile.AddedGraph | src/mist/io/static/js/app/views/machine_monitoring.js:487-498 | each appended graph is the one created for some visited metric at its position, and holds a single datasource that no earlier graph holds |
| Reconcile.FreshFrom | src/mist/io/static/js/app/views/machine_monitoring.js:478-498 | the positions, in increasing order, of exactly the metrics from a given position on whose datasource is neither held nor the datasource of an earlier metric in that range |
| Reconcile.GraphsAt | src/mist/io/static/js/app/views/machine_monitoring.js:491-497 | one graph per given position, in that order, each the graph created for the metric at that position |
| Reconcile.AddGraphsExact | src/mist/io/static/js/app/views/machine_monitoring.js:478-500 | the forEach appends exactly the graphs created for the first-fresh positions, in metric order, after the existing graphs |
| Reconcile.StreamCalls | src/mist/io/static/js/app/views/machine_monitoring.js:490-502 | one stream stop per added graph, and one start, last, exactly when the stream was streaming and a graph was added; nothing when nothing is added |
| Reconcile.UpdateGraphs | src/mist/io/static/js/app/views/machine_monitoring.js:474-507 | append-only: existing graphs stay in order; every metric's datasource is held afterwards and nothing else is added; each added graph comes from a metric and adds a new datasource; graphs sharing no datasource still share none; stop count equals graphs added; start at most once, and then last, iff was streaming and something was added; no stream call iff nothing added |
| Reconcile.UpdateGraphsExact | src/mist/io/static/js/app/views/machine_monitoring.js:474-507 | the pass's graphs are the old graphs followed by exactly the graphs created at the first-fresh positions from 0, in metric order |
| Reconcile.DisjointAfterAdding | src/mist/io/static/js/app/views/machine_monitoring.js:483-498 | If no two old graphs share a datasource, and each appended graph holds one datasource that no graph before it holds, then no two graphs in the result share a datasource. |
| Reconcile.DisjointReordered | src/mist/io/static/js/app/views/machine_monitoring.js:419 | If no two graphs share a datasource, then no two graphs share one after any reordering of them. |
| Reconcile.NothingToAdd | src/mist/io/static/js/app/views/machine_monitoring.js:478-500 | a pass whose metrics' datasources are all held appends nothing |
| Reconcile.ReconcileIdempotent | src/mist/io/static/js/app/views/machine_monitoring.js:474-507 | a second pass over unchanged metrics returns the same graphs and makes no stream call |
| Reconcile.OneGraphPerMetric | src/mist/io/static/js/app/views/machine_monitoring.js:478-500 | with distinct and not yet held datasources, the pass appends exactly one graph per metric, in metric order, each built from its metric and position |
| Preferences.Renumber | src/mist/io/static/js/app/views/machine_monitoring.js:247-252 | the forIn over the entries lowers every index above the collapsed one by one, leaves the others, and remembers the last entry at the collapsed index |
| Preferences.Collapse | src/mist/io/static/js/app/views/machine_monitoring.js:237-256 | entries above the collapsed index drop by one, entries below are unchanged; the last entry at that index becomes hidden with index metrics.length - 1; other entries at that index are untouched; the graph is hidden and moved to the last index |
| Preferences.CollapseKeepsPermutation | src/mist/io/static/js/app/views/machine_monitoring.js:243-255 | if the indices are a permutation of 0..n-1 with n the metric count, they still are after a collapse |
| Preferences.CollapseKeepsVisibleFirst | src/mist/io/static/js/app/views/machine_monitoring.js:243-255 | on a permutation, a collapse keeps every visible entry's index below every hidden entry's |
| Preferences.Expand | src/mist/io/static/js/app/views/machine_monitoring.js:215-221 | expanding clears the hidden flag of exactly the entry whose key the graph's cookie lookup reports, and the graph's isHidden; no index moves, no other entry changes |
| Preferences.ExpandKeepsPermutation | src/mist/io/static/js/app/views/machine_monitoring.js:215-221 | expanding keeps the indices a permutation |
| Preferences.CollapseThenExpand | src/mist/io/static/js/app/views/machine_monitoring.js:215-256 | when the lookup finds the entry the collapse moved, expanding the just-collapsed graph leaves it visible at the last index: expand does not undo the renumbering |
| Preferences.CollapseExample | src/mist/io/static/js/app/views/machine_monitoring.js:243-255 | collapsing index 1 of entries at 0, 1, 2 gives 0, 2 (hidden), 1 |
| Preferences.CollapseTwiceExample | src/mist/io/static/js/app/views/machine_monitoring.js:243-255 | collapsing twice at index 1 of three entries leaves the first-collapsed entry hidden at index 1, below the last index |
| Preferences.ExpandAfterCollapsesExample | src/mist/io/static/js/app/views/machine_monitoring.js:215-221 | expanding the entry at index 2 of a:0, b:1 (hidden), c:2 (hidden) leaves visible c behind hidden b, so expanding does not keep visible entries first |
| Events.Clear | src/mist/io/static/js/app/views/machine_monitoring.js:321-327 | the three collections become empty and nothing else changes |
| Events.UpdateRules | src/mist/io/static/js/app/views/machine_monitoring.js:451-457 | the old rules stay as a prefix; only rules of the view's machine are appended; every such rule's id is present afterwards; ids stay unique |
| Events.AddBuiltInMetrics | src/mist/io/static/js/app/views/machine_monitoring.js:461-464 | every built-in metric's id is present afterwards, only built-in metrics are appended, ids stay unique |
| Events.AddCustomMetrics | src/mist/io/static/js/app/views/machine_monitoring.js:465-470 | only custom metrics with hasMachine are appended; every such metric's id is present afterwards; ids stay unique |
| Events.UpdateMetrics | src/mist/io/static/js/app/views/machine_monitoring.js:460-471 | old metrics stay as a prefix; appended metrics are built-in or custom with hasMachine, the built-in ones before the custom ones; all of those are present by id; ids stay unique; rules and graphs untouched |
| Events.RuleAdded | src/mist/io/static/js/app/views/machine_monitoring.js:510-514 | an accepted rule is appended: one element longer, old rules a prefix, one more copy of the rule (no presence check); a rejected one, or a machine with no equals, changes nothing |
| Events.RuleDeleted | src/mist/io/static/js/app/views/machine_monitoring.js:517-521 | an accepted rule loses every copy and the other rules stay, in their order; otherwise nothing changes |
| Events.MetricAdded | src/mist/io/static/js/app/views/machine_monitoring.js:524-528 | a metric for the view's machine is appended: one element longer, old metrics a prefix, one more copy; otherwise nothing changes |
| Events.MetricDeleted | src/mist/io/static/js/app/views/machine_monitoring.js:531-534 | with no machine filter: the metric leaves the metrics and the other metrics stay, in their order; rules and graphs are never touched; no-op when no metric has its id |
| Events.RuleAddedThenDeleted | src/mist/io/static/js/app/views/machine_monitoring.js:510-521 | deleting a rule just added and not held before restores the view |
| Events.MetricAddedThenDeleted | src/mist/io/static/js/app/views/machine_monitoring.js:524-534 | deleting a metric just added and not held before restores the view |
| Events.MetricDeletedIsRemoveObject | src/mist/io/static/js/app/views/machine_monitoring.js:531-534 | the id guard never changes the outcome: the handler behaves as a plain removeObject |
| Flows.ManualCommand | src/mist/io/static/js/app/views/machine_monitoring.js:354-390 | the command is fetched first; the popup shows iff fetching succeeded; the forced enable happens iff it succeeded and the user confirmed; no other call is made (one, two or three calls); gettingCommand ends false |
| Flows.EnableConfirmation | src/mist/io/static/js/app/views/machine_monitoring.js:393-409 | a yes/no dialog, then the unforced enable iff confirmed, and no other call |
| Flows.EnableMonitoringClicked | src/mist/io/static/js/app/views/machine_monitoring.js:103-120 | first failure wins: login iff not authenticated, plan message iff authenticated without plan, command fetch iff both pass and the machine is not probed; forced enable iff that path succeeds and is confirmed; unforced enable iff probed and confirmed; at most one enable; the number of calls on each path is exact, so no other call is made |
| Flows.DisableMonitoringClicked | src/mist/io/static/js/app/views/machine_monitoring.js:123-158 | a yes/no dialog first; disable iff confirmed; graphs closed iff confirmed and disabling succeeded, after the disable; no other call |
| Flows.ConfirmedSteps | src/mist/io/static/js/app/views/machine_monitoring.js:277-307 | after confirmation: disable iff plugin, disassociate iff not plugin or disable succeeded, remove iff that and disassociate succeeded, in chain order; every call is one of those three for this metric and graph, and their exact number follows from the answers; failed disable resets the flag |
| Flows.RemoveMessage | src/mist/io/static/js/app/views/machine_monitoring.js:269-275 | the question quotes the metric name and ends on " ?"; text stands between them exactly for a plugin metric, and then ends on the server's name |
| Flows.RemoveClicked | src/mist/io/static/js/app/views/machine_monitoring.js:266-310 | the first call is the yes/no "Remove graph" dialog asking the question built from the graph's first metric; declining makes only that call and keeps the flag; disable iff confirmed plugin; disassociate iff confirmed and (not plugin or disabled); graph removed iff that and disassociated; failed disable resets the flag; otherwise a confirmed removal leaves it set; calls in dialog, disable, disassociate, remove order; after the dialog, every call is one of those three for the graph's metric and the graph itself, and the number of calls is exact |
| Flows.RemoveClickedIntended | src/mist/io/static/js/app/views/machine_monitoring.js:277-287 | corrected chain: after confirmation the flag stays set exactly when the graph is removed |
| Flows.DisassociateFailureLeavesPending | src/mist/io/static/js/app/views/machine_monitoring.js:277-287 | as written, a failed disassociation leaves the graph in place but still marked pending removal |
| Lifecycle.Load | src/mist/io/static/js/app/views/machine_monitoring.js:40-49 | load adds exactly its five registrations to the active ones |
| Lifecycle.Unload | src/mist/io/static/js/app/views/machine_monitoring.js:52-63 | unload drops exactly its five registrations and empties the view; its calls are exactly one close of the graphs if they were open, and none otherwise |
| Lifecycle.UnloadUndoesLoad | src/mist/io/static/js/app/views/machine_monitoring.js:43-59 | unload takes back exactly the registrations load made |
| Lifecycle.LoadedMetricDeletion | src/mist/io/static/js/app/views/machine_monitoring.js:43-47 | after load, `onMetricDelte` and `onMetricDisassociate` reach the metric deletion handler, `onMetricDelete` reaches nothing |
| Lifecycle.HideGraphs | src/mist/io/static/js/app/views/machine_monitoring.js:444-448 | closes the graphs iff they are open; the view is untouched |
| Lifecycle.InsertByIndex | src/mist/io/static/js/app/views/machine_monitoring.js:419 | inserting into graphs ordered by index keeps them ordered and adds exactly that graph |
| Lifecycle.SortByIndex | src/mist/io/static/js/app/views/machine_monitoring.js:419 | sortBy('index') returns the same graphs ordered by index |
| Lifecycle.InsertAtEnd | src/mist/io/static/js/app/views/machine_monitoring.js:419 | a graph whose index is at least every placed graph's goes after all of them, including those with an equal index |
| Lifecycle.SortKeepsOrdered | src/mist/io/static/js/app/views/machine_monitoring.js:419 | sorting graphs already ordered by index returns them unchanged, so graphs with equal index keep their order |
| Lifecycle.HeldIdsPermutation | src/mist/io/static/js/app/views/machine_monitoring.js:419 | reordering the graphs keeps the same datasource ids held |
| Lifecycle.ShowGraphs | src/mist/io/static/js/app/views/machine_monitoring.js:412-441 | if already open nothing happens; otherwise the same graphs are reordered by index, first stats become pending and the graphs are opened on them with the cookie's time window |
| Lifecycle.RebuildRules | src/mist/io/static/js/app/views/machine_monitoring.js:451-457 | on an emptied view, the rules become exactly the machine's rules, one per id |
| Lifecycle.RebuildMetrics | src/mist/io/static/js/app/views/machine_monitoring.js:460-471 | on an emptied view, the metrics become exactly the built-in ones and the machine's custom ones, one per id, the built-in ones first |
| Lifecycle.RebuildGraphs | src/mist/io/static/js/app/views/machine_monitoring.js:474-507 | on an emptied view, the graphs hold exactly the metrics' datasources, each created from a metric, no two sharing a datasource; one stop per graph, start iff was streaming and some graph |
| Lifecycle.RebuildGraphsExact | src/mist/io/static/js/app/views/machine_monitoring.js:474-507 | on an emptied view, the graphs are exactly those created at the first-fresh positions, in metric order; when the metrics' datasources are distinct, that is one graph per metric in metric order; one stop per graph and at most one start, last |
| Lifecycle.Rebuild | src/mist/io/static/js/app/views/machine_monitoring.js:67-71 | clear then rebuild rules, metrics and graphs: the view is rebuilt from the controllers (one graph per datasource, none shared); its calls are one stream stop per graph and at most one start, last, exactly when the stream was streaming and some graph was added |
| Lifecycle.ShowMonitoring | src/mist/io/static/js/app/views/machine_monitoring.js:67-73 | the view is rebuilt, then ordered by index with first stats pending when the graphs were closed; the calls are the rebuild's stream calls (one stop per graph, at most one start, last among them), followed by exactly one open of the graphs on the cookie's time window if they were closed, and nothing else |
| Lifecycle.HideMonitoring | src/mist/io/static/js/app/views/machine_monitoring.js:76-79 | the collections are emptied; the calls are exactly one close of the graphs if they were open, and none otherwise |
| Lifecycle.HasMonitoringObserver | src/mist/io/static/js/app/views/machine_monitoring.js:544-549 | graphs end open iff the machine has monitoring; a rebuilt view when it has, empty rules, metrics and graphs otherwise; opening only when monitored and closed, closing only when unmonitored and open; when monitored the calls are exactly those of showMonitoring, otherwise exactly one close if the graphs were open and none if not |
| Lifecycle.DeferredPassAfterShow | src/mist/io/static/js/app/views/machine_monitoring.js:552-554 | the reconciliation pass the metrics observer schedules after showing adds nothing and touches no stream |
| Lifecycle.ShowThenHide | src/mist/io/static/js/app/views/machine_monitoring.js:67-79 | hiding right after showing closes the graphs once and empties the view |

## Left out

- Collections.AddMissing: states which elements are appended, not that they follow the order of the source list.
- Events.UpdateRules: states which rules are appended, not their order, for the reason given for `Collections.AddMissing`.
- Events.AddBuiltInMetrics: states which built-in metrics are appended, not their order, for the reason given for `Collections.AddMissing`.
- Events.AddCustomMetrics: states which custom metrics are appended, not their order, for the reason given for `Collections.AddMissing`.
- Events.UpdateMetrics: states that built-in metrics come before custom ones, not the order within each group, for the reason given for `Collections.AddMissing`.
- Lifecycle.RebuildRules: states which rules the rebuilt view holds, not their order, for the reason given for `Collections.AddMissing`.
- Lifecycle.RebuildMetrics: states that built-in metrics come before custom ones, not the order within each group, for the reason given for `Collections.AddMissing`.
- Lifecycle.SortByIndex: states sorted and same multiset, not stability in general. The model inserts each graph after any with an equal index, so equal indices keep their input order, and `Lifecycle.SortKeepsOrdered` proves the consequence that already-ordered graphs are unchanged. Whether the browser's `sortBy` is stable is not part of this model.
- Preferences.Collapse: requires that some entry holds the collapsed graph's index. Otherwise the source dereferences an undefined entry (line 253) and throws.
- Preferences.Expand: requires that an entry with the key the lookup reports is present, because what the cookie lookup does for a graph with no entry is not part of this model. How the cookie controller derives that key from a graph is not part of this model either.
- Flows.RemoveClicked: requires that the graph has a datasource, because the source reads `graph.datasources[0]` unguarded.
- `graph.view.set('isHidden', …)` in collapse and expand is modelled as the graph's own `isHidden`. The graph's view object is not part of this model.
- Dialog bodies are left out, as presentation. Only the dialog kind, the head and the value that varies are kept (the install command, and the remove question built by `Flows.RemoveMessage`).
- DOM effects are left out as browser effects: `moveGraphToEnd`, `moveGraphButtonToEnd`, `Mist.smoothScroll`, and the time-window `select`.
- Timing is left out: `Ember.run.later` delays, `Ember.run.next`, and the coalescing of `Ember.run.once`. Each reconciliation pass is atomic. The scheduled pass after showing appears only as `Lifecycle.DeferredPassAfterShow`.
- The one-shot `onFetchStats` callback that clears `pendingFirstStats` is left out: it is a single flag assignment driven by an unseen controller.
- These actions are left out because each is one call into an unseen controller and holds no state of the view: `backClicked`, `forwardClicked`, `resetClicked`, `pauseClicked`, `addGraphClicked` and `addRuleClicked`.
- `timeWindowChanged` is left out. It reads the new time window from the page's `select`, passes it to the graphs controller's `resolution.change`, reads the machine's cookie entry, sets its `timeWindow` and writes the entry back. The page, the graphs controller and the cookie store are not part of this model.
- The internals of the cookie, monitoring, metrics, rules, graphs and dialog controllers, and of `Graph` and `Datasource`, are not part of this model. Where needed they are uninterpreted functions in `Env`, and their callbacks' results are inputs.
  - What the cookie lookup returns for a graph with no entry is left to the uninterpreted function.
  - `Graph.create`'s defaults for `isHidden` and `pendingRemoval` are taken as false.
  - The graphs controller is taken to be open after it is opened and closed after it is closed.
- `_updateRules` calls `this.machine.equals` without first checking that it exists, so a machine without `equals` would throw. The model assumes `equals` is present there.

## Findings

| source | as written | input that shows it | evidently intended | confidence | as-written member | corrected member |
|---|---|---|---|---|---|---|
| src/mist/io/static/js/app/views/machine_monitoring.js:277-287 | when `disassociateMetric` reports failure, `pendingRemoval` stays true although the graph is kept | confirm removal of a non-plugin metric's graph; `disassociateMetric` calls back with `false` | every failure along the chain resets `pendingRemoval`, as the failed-disable branch does | medium, not executed | Flows.DisassociateFailureLeavesPending | Flows.RemoveClickedIntended |

=== FILE: collections.dfy ===
/** The two collection primitives the view builds on: `findBy('id', …)`
    followed by `pushObject` (append when the id is absent), and
    `removeObject` (drop by identity). */
module Collections {

  /** The ids `findBy('id', …)` can find in `xs`. */
  function IdSet<T>(xs: seq<T>, idOf: T -> string): set<string>
  {
    set i | 0 <= i < |xs| :: idOf(xs[i])
  }

  /** The ids of the elements of `src` that `keep` selects. */
  function KeptIds<T>(src: seq<T>, keep: T -> bool, idOf: T -> string): set<string>
  {
    set i | 0 <= i < |src| && keep(src[i]) :: idOf(src[i])
  }

  predicate UniqueIds<T>(xs: seq<T>, idOf: T -> string)
  {
    forall i, j :: 0 <= i < j < |xs| ==> idOf(xs[i]) != idOf(xs[j])
  }

  lemma IdSetAppend<T>(xs: seq<T>, x: T, idOf: T -> string)
    ensures IdSet(xs + [x], idOf) == IdSet(xs, idOf) + {idOf(x)}
  {
    var ys := xs + [x];
    assert ys[|xs|] == x;
    forall k | k in IdSet(xs, idOf)
      ensures k in IdSet(ys, idOf)
    {
      var i :| 0 <= i < |xs| && idOf(xs[i]) == k;
      assert ys[i] == xs[i];
    }
  }

  lemma KeptIdsCons<T>(src: seq<T>, keep: T -> bool, idOf: T -> string)
    requires src != []
    ensures KeptIds(src, keep, idOf)
         == (if keep(src[0]) then {idOf(src[0])} else {}) + KeptIds(src[1..], keep, idOf)
  {
    var rest := src[1..];
    forall k | k in KeptIds(src, keep, idOf)
      ensures k in (if keep(src[0]) then {idOf(src[0])} else {}) + KeptIds(rest, keep, idOf)
    {
      var i :| 0 <= i < |src| && keep(src[i]) && idOf(src[i]) == k;
      if i > 0 {
        assert rest[i - 1] == src[i];
      }
    }
    forall k | k in KeptIds(rest, keep, idOf)
      ensures k in KeptIds(src, keep, idOf)
    {
      var i :| 0 <= i < |rest| && keep(rest[i]) && idOf(rest[i]) == k;
      assert src[i + 1] == rest[i];
    }
  }

  /** `src.forEach(x => if (keep(x) && !xs.findBy('id', x.id)) xs.pushObject(x))`:
      appends, in order, each selected element of `src` whose id is not yet
      present. */
  function AddMissing<T>(xs: seq<T>, src: seq<T>, keep: T -> bool, idOf: T -> string): (r: seq<T>)
    ensures |xs| <= |r| && r[..|xs|] == xs
    ensures forall i :: |xs| <= i < |r| ==> keep(r[i]) && r[i] in src
    ensures IdSet(r, idOf) == IdSet(xs, idOf) + KeptIds(src, keep, idOf)
    ensures UniqueIds(xs, idOf) ==> UniqueIds(r, idOf)
    decreases |src|
  {
    if src == [] then xs
    else
      var x := src[0];
      var isNew := keep(x) && idOf(x) !in IdSet(xs, idOf);
      var next := if isNew then xs + [x] else xs;
      assert IdSet(next, idOf) + KeptIds(src[1..], keep, idOf)
          == IdSet(xs, idOf) + KeptIds(src, keep, idOf) by {
        KeptIdsCons(src, keep, idOf);
        if isNew { IdSetAppend(xs, x, idOf); }
      }
      assert UniqueIds(xs, idOf) ==> UniqueIds(next, idOf) by {
        if isNew && UniqueIds(xs, idOf) {
          forall i | 0 <= i < |xs|
            ensures idOf(xs[i]) != idOf(x)
          {
            assert idOf(xs[i]) in IdSet(xs, idOf);
          }
        }
      }
      var r := AddMissing(next, src[1..], keep, idOf);
      assert r[..|xs|] == r[..|next|][..|xs|];
      assert forall i :: |xs| <= i < |next| ==> r[i] == r[..|next|][i] == x;
      r
  }

  /** Every selected element of `src` has its id in `AddMissing`'s result. */
  lemma AddMissingCovers<T>(xs: seq<T>, src: seq<T>, keep: T -> bool, idOf: T -> string, x: T)
    requires x in src && keep(x)
    ensures idOf(x) in IdSet(AddMissing(xs, src, keep, idOf), idOf)
  {
    var i :| 0 <= i < |src| && src[i] == x;
    assert idOf(src[i]) in KeptIds(src, keep, idOf);
  }

  /** The positions of `xs` that do not hold `x`, in increasing order. */
  function Survivors<T(==)>(xs: seq<T>, x: T): (ps: seq<nat>)
    ensures forall k :: 0 <= k < |ps| ==> ps[k] < |xs| && xs[ps[k]] != x
    ensures forall k, l :: 0 <= k < l < |ps| ==> ps[k] < ps[l]
    ensures forall p :: 0 <= p < |xs| && xs[p] != x ==> p in ps
  {
    if xs == [] then []
    else
      var n := |xs| - 1;
      var init := xs[..n];
      var before := Survivors(init, x);
      assert forall k :: 0 <= k < |before| ==> xs[before[k]] == init[before[k]];
      assert forall p :: 0 <= p < n ==> xs[p] == init[p];
      if xs[n] == x then before else before + [n]
  }

  /** `r` is `xs` with every element equal to `x` dropped and the others kept
      in their order. */
  predicate DropsInOrder<T(==)>(r: seq<T>, xs: seq<T>, x: T)
  {
    var ps := Survivors(xs, x);
    |r| == |ps| && forall k :: 0 <= k < |r| ==> r[k] == xs[ps[k]]
  }

  /** `xs.removeObject(x)`: every occurrence of `x` leaves, the rest stay in
      their order. */
  function RemoveAll<T(==)>(xs: seq<T>, x: T): (r: seq<T>)
    ensures multiset(r) == multiset(xs)[x := 0]
    ensures x !in r
    ensures x !in xs ==> r == xs
  {
    if xs == [] then []
    else
      var n := |xs| - 1;
      assert xs == xs[..n] + [xs[n]];
      var kept := RemoveAll(xs[..n], x);
      if xs[n] == x then kept else kept + [xs[n]]
  }

  /** `removeObject` keeps the order of what stays. */
  lemma {:induction false} RemoveAllInOrder<T>(xs: seq<T>, x: T)
    ensures DropsInOrder(RemoveAll(xs, x), xs, x)
  {
    if xs != [] {
      var init := xs[..|xs| - 1];
      RemoveAllInOrder(init, x);
      DropsInOrderStep(RemoveAll(init, x), xs, x);
    }
  }

  /** Looking at one more element keeps `DropsInOrder`. */
  lemma DropsInOrderStep<T>(kept: seq<T>, xs: seq<T>, x: T)
    requires xs != [] && DropsInOrder(kept, xs[..|xs| - 1], x)
    ensures var last := xs[|xs| - 1];
            DropsInOrder(if last == x then kept else kept + [last], xs, x)
  {
    var n := |xs| - 1;
    var ps := Survivors(xs[..n], x);
    assert forall k :: 0 <= k < |kept| ==> kept[k] == xs[ps[k]];
  }

  /** Removing what was just appended to a list not holding it gives the list back. */
  lemma RemoveAppended<T>(xs: seq<T>, x: T)
    requires x !in xs
    ensures RemoveAll(xs + [x], x) == xs
  {
    assert (xs + [x])[..|xs|] == xs;
  }

  /** Two positions holding the same element make it count twice. */
  lemma CountTwo<T>(s: seq<T>, i: int, j: int)
    requires 0 <= i < j < |s| && s[i] == s[j]
    ensures multiset(s)[s[i]] >= 2
  {
    assert s == s[..j] + s[j..];
    assert s[..j][i] == s[i];
    assert s[j..][0] == s[j];
  }

  /** An element counted twice sits at two positions. */
  lemma {:induction false} TwoPositions<T>(s: seq<T>, x: T)
    requires multiset(s)[x] >= 2
    ensures exists i, j :: 0 <= i < j < |s| && s[i] == x && s[j] == x
  {
    assert s != [];
    assert s == [s[0]] + s[1..];
    if s[0] == x {
      assert x in multiset(s[1..]);
      var j :| 0 <= j < |s[1..]| && s[1..][j] == x;
      assert s[j + 1] == x;
    } else {
      TwoPositions(s[1..], x);
      var i, j :| 0 <= i < j < |s[1..]| && s[1..][i] == x && s[1..][j] == x;
      assert s[i + 1] == x && s[j + 1] == x;
    }
  }
}

=== FILE: events.dfy ===
/** The view's three collections: rebuilding them (`_clear`, `_updateRules`,
    `_updateMetrics`) and the incremental handlers for rule and metric events
    (`_ruleAdded`, `_ruleDeleted`, `_metricAdded`, `_metricDeleted`). */
module Events {
  import opened Model
  import opened Collections

  /** `_clear`: the three collections start over empty. */
  function Clear(v: View): (r: View)
    ensures r.rules == [] && r.metrics == [] && r.graphs == []
    ensures r.machine == v.machine && r.pendingFirstStats == v.pendingFirstStats
  {
    v.(rules := [], metrics := [], graphs := [])
  }

  /** `_updateRules` over the rules controller's `content`: appends each rule of
      the view's machine whose id is not present yet. */
  function UpdateRules(v: View, env: Env, content: seq<Rule>): (r: View)
    ensures r.machine == v.machine && r.metrics == v.metrics && r.graphs == v.graphs
    ensures r.pendingFirstStats == v.pendingFirstStats
    ensures |v.rules| <= |r.rules| && r.rules[..|v.rules|] == v.rules
    ensures forall i :: |v.rules| <= i < |r.rules| ==>
      r.rules[i] in content && env.equals(v.machine, r.rules[i].machine)
    ensures forall i :: 0 <= i < |content| && env.equals(v.machine, content[i].machine) ==>
      content[i].id in IdSet(r.rules, RuleId)
    ensures UniqueIds(v.rules, RuleId) ==> UniqueIds(r.rules, RuleId)
  {
    var ofMachine := (x: Rule) => env.equals(v.machine, x.machine);
    var rules := AddMissing(v.rules, content, ofMachine, RuleId);
    assert forall i :: 0 <= i < |content| && ofMachine(content[i]) ==>
      RuleId(content[i]) in KeptIds(content, ofMachine, RuleId);
    v.(rules := rules)
  }

  /** The first loop of `_updateMetrics`: every built-in metric whose id is
      not present yet. */
  function AddBuiltInMetrics(metrics: seq<Metric>, builtIn: seq<Metric>): (r: seq<Metric>)
    ensures |metrics| <= |r| && r[..|metrics|] == metrics
    ensures forall i :: |metrics| <= i < |r| ==> r[i] in builtIn
    ensures forall i :: 0 <= i < |builtIn| ==> builtIn[i].id in IdSet(r, MetricId)
    ensures IdSet(metrics, MetricId) <= IdSet(r, MetricId)
    ensures UniqueIds(metrics, MetricId) ==> UniqueIds(r, MetricId)
  {
    var all := (x: Metric) => true;
    assert forall i :: 0 <= i < |builtIn| ==> MetricId(builtIn[i]) in KeptIds(builtIn, all, MetricId);
    AddMissing(metrics, builtIn, all, MetricId)
  }

  /** The second loop of `_updateMetrics`: every custom metric associated with
      `machine` whose id is not present yet. */
  function AddCustomMetrics(metrics: seq<Metric>, env: Env, machine: Machine, custom: seq<Metric>): (r: seq<Metric>)
    ensures |metrics| <= |r| && r[..|metrics|] == metrics
    ensures forall i :: |metrics| <= i < |r| ==> r[i] in custom && env.hasMachine(r[i], machine)
    ensures forall i :: 0 <= i < |custom| && env.hasMachine(custom[i], machine) ==>
      custom[i].id in IdSet(r, MetricId)
    ensures IdSet(metrics, MetricId) <= IdSet(r, MetricId)
    ensures UniqueIds(metrics, MetricId) ==> UniqueIds(r, MetricId)
  {
    var ofMachine := (x: Metric) => env.hasMachine(x, machine);
    assert forall i :: 0 <= i < |custom| && ofMachine(custom[i]) ==>
      MetricId(custom[i]) in KeptIds(custom, ofMachine, MetricId);
    AddMissing(metrics, custom, ofMachine, MetricId)
  }

  /** `ms[from..]` splits at `k`: built-in metrics before it, custom metrics of
      `machine` from it on. */
  predicate SplitAt(ms: seq<Metric>, from: nat, k: nat, env: Env, machine: Machine, builtIn: seq<Metric>, custom: seq<Metric>)
  {
    && from <= k <= |ms|
    && (forall i :: from <= i < k ==> ms[i] in builtIn)
    && (forall i :: k <= i < |ms| ==> ms[i] in custom && env.hasMachine(ms[i], machine))
  }

  /** Past position `from`, the built-in metrics come first and the custom
      ones after them. */
  predicate BuiltInThenCustom(ms: seq<Metric>, from: nat, env: Env, machine: Machine, builtIn: seq<Metric>, custom: seq<Metric>)
  {
    exists k :: from <= k <= |ms| && SplitAt(ms, from, k, env, machine, builtIn, custom)
  }

  /** `_updateMetrics`: appends every built-in metric, then every custom metric
      associated with the view's machine, skipping ids already present. */
  function UpdateMetrics(v: View, env: Env, builtIn: seq<Metric>, custom: seq<Metric>): (r: View)
    ensures r.machine == v.machine && r.rules == v.rules && r.graphs == v.graphs
    ensures r.pendingFirstStats == v.pendingFirstStats
    ensures |v.metrics| <= |r.metrics| && r.metrics[..|v.metrics|] == v.metrics
    ensures forall i :: |v.metrics| <= i < |r.metrics| ==>
      r.metrics[i] in builtIn || (r.metrics[i] in custom && env.hasMachine(r.metrics[i], v.machine))
    ensures BuiltInThenCustom(r.metrics, |v.metrics|, env, v.machine, builtIn, custom)
    ensures forall i :: 0 <= i < |builtIn| ==> builtIn[i].id in IdSet(r.metrics, MetricId)
    ensures forall i :: 0 <= i < |custom| && env.hasMachine(custom[i], v.machine) ==>
      custom[i].id in IdSet(r.metrics, MetricId)
    ensures UniqueIds(v.metrics, MetricId) ==> UniqueIds(r.metrics, MetricId)
  {
    var withBuiltIn := AddBuiltInMetrics(v.metrics, builtIn);
    var metrics := AddCustomMetrics(withBuiltIn, env, v.machine, custom);
    assert metrics[..|v.metrics|] == metrics[..|withBuiltIn|][..|v.metrics|];
    assert forall i :: |v.metrics| <= i < |withBuiltIn| ==> metrics[i] == withBuiltIn[i];
    assert SplitAt(metrics, |v.metrics|, |withBuiltIn|, env, v.machine, builtIn, custom);
    v.(metrics := metrics)
  }

  /** The handlers' machine filter: `this.machine.equals` exists and says yes. */
  predicate Accepts(v: View, env: Env, m: Machine)
  {
    env.canCompare && env.equals(v.machine, m)
  }

  /** `_ruleAdded`: appends the rule when it belongs to the view's machine, with
      no check that it is already there. */
  function RuleAdded(v: View, env: Env, rule: Rule): (r: View)
    ensures r.machine == v.machine && r.metrics == v.metrics && r.graphs == v.graphs
    ensures r.pendingFirstStats == v.pendingFirstStats
    ensures |v.rules| <= |r.rules| && r.rules[..|v.rules|] == v.rules
    ensures |r.rules| == |v.rules| + (if Accepts(v, env, rule.machine) then 1 else 0)
    ensures multiset(r.rules)[rule] == multiset(v.rules)[rule] + (if Accepts(v, env, rule.machine) then 1 else 0)
    ensures !Accepts(v, env, rule.machine) ==> r == v
  {
    if Accepts(v, env, rule.machine) then v.(rules := v.rules + [rule]) else v
  }

  /** `_ruleDeleted`: removes the rule when it belongs to the view's machine. */
  function RuleDeleted(v: View, env: Env, rule: Rule): (r: View)
    ensures r.machine == v.machine && r.metrics == v.metrics && r.graphs == v.graphs
    ensures r.pendingFirstStats == v.pendingFirstStats
    ensures Accepts(v, env, rule.machine) ==> multiset(r.rules) == multiset(v.rules)[rule := 0]
    ensures Accepts(v, env, rule.machine) ==> DropsInOrder(r.rules, v.rules, rule)
    ensures !Accepts(v, env, rule.machine) ==> r == v
  {
    RemoveAllInOrder(v.rules, rule);
    if Accepts(v, env, rule.machine) then v.(rules := RemoveAll(v.rules, rule)) else v
  }

  /** `_metricAdded`: appends the metric when the event's machine is the view's,
      with no check that it is already there. */
  function MetricAdded(v: View, env: Env, machine: Machine, metric: Metric): (r: View)
    ensures r.machine == v.machine && r.rules == v.rules && r.graphs == v.graphs
    ensures r.pendingFirstStats == v.pendingFirstStats
    ensures |v.metrics| <= |r.metrics| && r.metrics[..|v.metrics|] == v.metrics
    ensures |r.metrics| == |v.metrics| + (if Accepts(v, env, machine) then 1 else 0)
    ensures multiset(r.metrics)[metric] == multiset(v.metrics)[metric] + (if Accepts(v, env, machine) then 1 else 0)
    ensures !Accepts(v, env, machine) ==> r == v
  {
    if Accepts(v, env, machine) then v.(metrics := v.metrics + [metric]) else v
  }

  /** `_metricDeleted`: removes the metric object when some metric with its id
      is present, whatever machine the event came from; rules and graphs are
      never touched. */
  function MetricDeleted(v: View, metric: Metric): (r: View)
    ensures r.machine == v.machine && r.rules == v.rules && r.graphs == v.graphs
    ensures r.pendingFirstStats == v.pendingFirstStats
    ensures metric !in r.metrics
    ensures multiset(r.metrics) == multiset(v.metrics)[metric := 0]
    ensures DropsInOrder(r.metrics, v.metrics, metric)
    ensures metric.id !in IdSet(v.metrics, MetricId) ==> r == v
  {
    RemoveAllInOrder(v.metrics, metric);
    assert metric in v.metrics ==> metric.id in IdSet(v.metrics, MetricId) by {
      if metric in v.metrics {
        var i :| 0 <= i < |v.metrics| && v.metrics[i] == metric;
        assert MetricId(v.metrics[i]) in IdSet(v.metrics, MetricId);
      }
    }
    if metric.id in IdSet(v.metrics, MetricId) then v.(metrics := RemoveAll(v.metrics, metric)) else v
  }

  /** Deleting a rule just added (and not held before) restores the view. */
  lemma RuleAddedThenDeleted(v: View, env: Env, rule: Rule)
    requires rule !in v.rules
    ensures RuleDeleted(RuleAdded(v, env, rule), env, rule) == v
  {
    if Accepts(v, env, rule.machine) {
      RemoveAppended(v.rules, rule);
    }
  }

  /** Deleting a metric just added (and not held before) restores the view. */
  lemma MetricAddedThenDeleted(v: View, env: Env, machine: Machine, metric: Metric)
    requires metric !in v.metrics
    ensures MetricDeleted(MetricAdded(v, env, machine, metric), metric) == v
  {
    if Accepts(v, env, machine) {
      var w := MetricAdded(v, env, machine, metric);
      assert w.metrics[|v.metrics|] == metric;
      assert metric.id in IdSet(w.metrics, MetricId);
      RemoveAppended(v.metrics, metric);
    }
  }

  /** The id guard of `_metricDeleted` never changes its outcome: it behaves
      as a plain `removeObject`. */
  lemma MetricDeletedIsRemoveObject(v: View, metric: Metric)
    ensures MetricDeleted(v, metric) == v.(metrics := RemoveAll(v.metrics, metric))
  {
    if metric in v.metrics {
      var i :| 0 <= i < |v.metrics| && v.metrics[i] == metric;
      assert MetricId(v.metrics[i]) in IdSet(v.metrics, MetricId);
    }
  }
}

=== FILE: flows.dfy ===
/** The view's user actions that go through dialogs and asynchronous
    controller calls: enabling monitoring (`enableMonitoringClicked` with
    `_showManualMonitoringCommand` and `_showEnableMonitoringConfirmation`),
    disabling it (`disableMonitoringClicked`) and removing a graph
    (`removeClicked`).

    Each flow is a function of the user's dialog answers and the controllers'
    callback results to the calls the view makes, in order, and the view's
    flags at the end. A callback that never fires is not modelled. */
module Flows {
  import opened Model

  const ENABLE_HEAD := "Enable monitoring"
  const DISABLE_HEAD := "Disable monitoring"
  const NO_PLAN_HEAD := "No plan"
  const REMOVE_HEAD := "Remove graph"

  /** `Mist.authenticated` and whether `Mist.current_plan` is set. */
  datatype Session = Session(authenticated: bool, hasPlan: bool)

  /** The monitoring controller's answer to `getMonitoringCommand`. */
  datatype CommandReply = CommandFailed | CommandReady(command: string)

  datatype EnableOutcome = EnableOutcome(calls: seq<Call>, gettingCommand: Option<bool>)

  /** At most one call in `calls` enables monitoring. */
  predicate AtMostOneEnable(calls: seq<Call>)
  {
    forall i, j :: 0 <= i < j < |calls| ==> !(calls[i].EnableMonitoring? && calls[j].EnableMonitoring?)
  }

  /** `_showManualMonitoringCommand`: fetches the install command; only if that
      succeeds is the popup shown, and only its confirmation enables
      monitoring, forced. `gettingCommand` ends `false` either way. */
  function ManualCommand(machine: Machine, reply: CommandReply, didConfirm: bool): (r: EnableOutcome)
    ensures |r.calls| >= 1 && r.calls[0] == GetMonitoringCommand(machine)
    // nothing but the fetch, the popup and the forced enable
    ensures |r.calls| == 1 + (if reply.CommandReady? then (if didConfirm then 2 else 1) else 0)
    ensures reply.CommandReady? ==> |r.calls| >= 2 && r.calls[1] == OpenDialog(OkCancel, ENABLE_HEAD, reply.command)
    ensures reply.CommandFailed? ==> r.calls == [GetMonitoringCommand(machine)]
    ensures EnableMonitoring(machine, true) in r.calls <==> reply.CommandReady? && didConfirm
    ensures forall c :: c in r.calls && c.EnableMonitoring? ==> c == EnableMonitoring(machine, true)
    ensures forall c :: c in r.calls ==> !c.OpenLogin? && !(c.OpenDialog? && c.kind != OkCancel)
    ensures AtMostOneEnable(r.calls)
    ensures r.gettingCommand == Some(false)
  {
    var popup :=
      match reply
      case CommandFailed => []
      case CommandReady(command) =>
        [OpenDialog(OkCancel, ENABLE_HEAD, command)]
        + (if didConfirm then [EnableMonitoring(machine, true)] else []);
    EnableOutcome([GetMonitoringCommand(machine)] + popup, Some(false))
  }

  /** `_showEnableMonitoringConfirmation`: a yes/no dialog whose confirmation
      enables monitoring, unforced. */
  function EnableConfirmation(machine: Machine, didConfirm: bool): (calls: seq<Call>)
    ensures |calls| >= 1 && calls[0] == OpenDialog(YesNo, ENABLE_HEAD, "")
    // nothing but the dialog and the unforced enable
    ensures |calls| == if didConfirm then 2 else 1
    ensures EnableMonitoring(machine, false) in calls <==> didConfirm
    ensures forall c :: c in calls && c.EnableMonitoring? ==> c == EnableMonitoring(machine, false)
    ensures forall c :: c in calls ==> !c.OpenLogin? && !c.GetMonitoringCommand? && !(c.OpenDialog? && c.kind != YesNo)
    ensures AtMostOneEnable(calls)
  {
    [OpenDialog(YesNo, ENABLE_HEAD, "")] + (if didConfirm then [EnableMonitoring(machine, false)] else [])
  }

  /** `enableMonitoringClicked`: the first failing check wins — not logged in,
      no plan, machine not probed — and a probed machine goes straight to the
      confirmation. `reply` is used only on the manual-command path,
      `didConfirm` only where a dialog with a choice is shown. */
  function EnableMonitoringClicked(s: Session, machine: Machine, gettingCommand: Option<bool>,
                                   reply: CommandReply, didConfirm: bool): (r: EnableOutcome)
    ensures OpenLogin in r.calls <==> !s.authenticated
    ensures !s.authenticated ==> r.calls == [OpenLogin]
    ensures OpenDialog(Ok, NO_PLAN_HEAD, "") in r.calls <==> s.authenticated && !s.hasPlan
    ensures s.authenticated && !s.hasPlan ==> r.calls == [OpenDialog(Ok, NO_PLAN_HEAD, "")]
    ensures GetMonitoringCommand(machine) in r.calls <==> s.authenticated && s.hasPlan && !machine.probed
    ensures EnableMonitoring(machine, true) in r.calls <==>
      s.authenticated && s.hasPlan && !machine.probed && reply.CommandReady? && didConfirm
    ensures EnableMonitoring(machine, false) in r.calls <==>
      s.authenticated && s.hasPlan && machine.probed && didConfirm
    ensures forall c :: c in r.calls && c.EnableMonitoring? ==> c.machine == machine
    ensures AtMostOneEnable(r.calls)
    // the path taken makes exactly its own calls, and no other
    ensures |r.calls| ==
      if !s.authenticated || !s.hasPlan then 1
      else if !machine.probed then 1 + (if reply.CommandReady? then (if didConfirm then 2 else 1) else 0)
      else if didConfirm then 2 else 1
    ensures s.authenticated && s.hasPlan && !machine.probed ==> r.calls[0] == GetMonitoringCommand(machine)
    ensures s.authenticated && s.hasPlan && !machine.probed && reply.CommandReady? ==>
      r.calls[1] == OpenDialog(OkCancel, ENABLE_HEAD, reply.command)
    ensures s.authenticated && s.hasPlan && machine.probed ==> r.calls[0] == OpenDialog(YesNo, ENABLE_HEAD, "")
    ensures r.gettingCommand ==
      (if s.authenticated && s.hasPlan && !machine.probed then Some(false) else gettingCommand)
  {
    if !s.authenticated then EnableOutcome([OpenLogin], gettingCommand)
    else if !s.hasPlan then EnableOutcome([OpenDialog(Ok, NO_PLAN_HEAD, "")], gettingCommand)
    else if !machine.probed then ManualCommand(machine, reply, didConfirm)
    else EnableOutcome(EnableConfirmation(machine, didConfirm), gettingCommand)
  }

  /** `disableMonitoringClicked`: a yes/no dialog; on confirmation the
      monitoring controller disables monitoring, and only if that succeeds are
      the graphs closed. A failure is not retried. */
  function DisableMonitoringClicked(machine: Machine, didConfirm: bool, disabled: bool): (calls: seq<Call>)
    ensures |calls| >= 1 && calls[0] == OpenDialog(YesNo, DISABLE_HEAD, "")
    // nothing but the dialog, the disable and the close
    ensures |calls| == 1 + (if didConfirm then 1 + (if disabled then 1 else 0) else 0)
    ensures DisableMonitoring(machine) in calls <==> didConfirm
    ensures CloseGraphs in calls <==> didConfirm && disabled
    ensures forall c :: c in calls ==> !c.EnableMonitoring? && !c.DisableMetric? && !c.RemoveGraph?
    ensures CloseGraphs in calls ==> calls[|calls| - 1] == CloseGraphs && calls[1] == DisableMonitoring(machine)
  {
    [OpenDialog(YesNo, DISABLE_HEAD, "")]
    + if !didConfirm then []
      else [DisableMonitoring(machine)] + (if disabled then [CloseGraphs] else [])
  }

  /** The question `removeClicked` asks, naming the graph's metric and, for a
      plugin metric, the server it is disabled on. */
  function RemoveMessage(metric: Metric, machine: Machine): (r: string)
    // the question opens on the quoted metric name and closes on " ?"
    ensures var head := "Are you sure you want to remove \"" + metric.name + "\"";
            |head| + 2 <= |r| && r[..|head|] == head && r[|r| - 2..] == " ?"
    // between them there is text exactly for a plugin, and it ends on the server's name
    ensures var head := "Are you sure you want to remove \"" + metric.name + "\"";
            var between := r[|head|..|r| - 2];
            && (between != [] <==> metric.isPlugin)
            && (metric.isPlugin ==>
                  |machine.name| <= |between| && between[|between| - |machine.name|..] == machine.name)
  {
    "Are you sure you want to remove \"" + metric.name + "\""
    + (if metric.isPlugin then " and disable it from server " + machine.name else "")
    + " ?"
  }

  datatype RemoveOutcome = RemoveOutcome(calls: seq<Call>, pendingRemoval: bool)

  /** The chain after the user confirmed: disable a plugin metric, then
      disassociate, then remove the graph, stopping at the first failure.
      `pending` is the flag a failed disassociation leaves. */
  function ConfirmedSteps(graph: Graph, machine: Machine, metric: Metric, disabled: bool,
                          disassociated: bool, pending: bool): (r: RemoveOutcome)
    ensures DisableMetric(metric, machine) in r.calls <==> metric.isPlugin
    ensures DisassociateMetric(metric, machine) in r.calls <==> !metric.isPlugin || disabled
    ensures RemoveGraph(graph) in r.calls <==> (!metric.isPlugin || disabled) && disassociated
    ensures metric.isPlugin && !disabled ==> !r.pendingRemoval
    ensures (!metric.isPlugin || disabled) ==> r.pendingRemoval == (disassociated || pending)
    ensures InChainOrder(r.calls)
    ensures forall c :: c in r.calls ==> 1 <= RemoveRank(c) < 4
    // only this metric's and this graph's steps, each at most once
    ensures forall c :: c in r.calls ==>
      c == DisableMetric(metric, machine) || c == DisassociateMetric(metric, machine) || c == RemoveGraph(graph)
    ensures |r.calls| == (if metric.isPlugin then 1 else 0)
                         + (if !metric.isPlugin || disabled then (if disassociated then 2 else 1) else 0)
  {
    var disassociate := DisassociateMetric(metric, machine);
    if !metric.isPlugin then
      if disassociated then RemoveOutcome([disassociate, RemoveGraph(graph)], true)
      else RemoveOutcome([disassociate], pending)
    else if !disabled then RemoveOutcome([DisableMetric(metric, machine)], false)
    else if disassociated then
      RemoveOutcome([DisableMetric(metric, machine), disassociate, RemoveGraph(graph)], true)
    else RemoveOutcome([DisableMetric(metric, machine), disassociate], pending)
  }

  /** The two-phase graph removal, for the graph's first datasource's metric.
      `resetOnDisassociateFailure` chooses what happens to `pendingRemoval`
      when disassociating fails: the code as written keeps it set. */
  function RemoveSteps(graph: Graph, machine: Machine, didConfirm: bool, disabled: bool,
                       disassociated: bool, resetOnDisassociateFailure: bool): (r: RemoveOutcome)
    requires |graph.datasources| > 0
    ensures |r.calls| >= 1 && r.calls[0].OpenDialog? && r.calls[0].kind == YesNo
    ensures r.calls[0] == OpenDialog(YesNo, REMOVE_HEAD, RemoveMessage(graph.datasources[0].metric, machine))
    ensures forall c :: c in r.calls[1..] ==>
      || c == DisableMetric(graph.datasources[0].metric, machine)
      || c == DisassociateMetric(graph.datasources[0].metric, machine)
      || c == RemoveGraph(graph)
    ensures |r.calls| == 1 + (if !didConfirm then 0
                              else (if graph.datasources[0].metric.isPlugin then 1 else 0)
                                   + (if !graph.datasources[0].metric.isPlugin || disabled
                                      then (if disassociated then 2 else 1) else 0))
    ensures DisableMetric(graph.datasources[0].metric, machine) in r.calls <==>
      didConfirm && graph.datasources[0].metric.isPlugin
    ensures DisassociateMetric(graph.datasources[0].metric, machine) in r.calls <==>
      didConfirm && (!graph.datasources[0].metric.isPlugin || disabled)
    ensures RemoveGraph(graph) in r.calls <==>
      didConfirm && (!graph.datasources[0].metric.isPlugin || disabled) && disassociated
    ensures InChainOrder(r.calls)
    ensures forall c :: c in r.calls ==> RemoveRank(c) < 4
    ensures !didConfirm ==> |r.calls| == 1 && r.pendingRemoval == graph.pendingRemoval
    ensures didConfirm ==> r.calls[1..] == ConfirmedSteps(graph, machine, graph.datasources[0].metric,
      disabled, disassociated, !resetOnDisassociateFailure).calls
    ensures didConfirm ==> r.pendingRemoval == ConfirmedSteps(graph, machine, graph.datasources[0].metric,
      disabled, disassociated, !resetOnDisassociateFailure).pendingRemoval
  {
    var metric := graph.datasources[0].metric;
    var dialog := OpenDialog(YesNo, REMOVE_HEAD, RemoveMessage(metric, machine));
    if !didConfirm then RemoveOutcome([dialog], graph.pendingRemoval)
    else
      var rest := ConfirmedSteps(graph, machine, metric, disabled, disassociated, !resetOnDisassociateFailure);
      RemoveOutcome([dialog] + rest.calls, rest.pendingRemoval)
  }

  /** The order of the removal chain's steps: dialog, disable, disassociate,
      remove. */
  function RemoveRank(c: Call): nat
  {
    match c
    case OpenDialog(_, _, _) => 0
    case DisableMetric(_, _) => 1
    case DisassociateMetric(_, _) => 2
    case RemoveGraph(_) => 3
    case _ => 4
  }

  /** Each call of `calls` comes strictly later in the chain than the one before. */
  predicate InChainOrder(calls: seq<Call>)
  {
    forall i, j :: 0 <= i < j < |calls| ==> RemoveRank(calls[i]) < RemoveRank(calls[j])
  }

  /** `removeClicked(graph)` as written, with the dialog answer and the two
      callbacks' success flags. */
  function RemoveClicked(graph: Graph, machine: Machine, didConfirm: bool, disabled: bool,
                         disassociated: bool): (r: RemoveOutcome)
    requires |graph.datasources| > 0
    // declining makes no call beyond the dialog and leaves the flag alone
    ensures !didConfirm ==> |r.calls| == 1 && r.pendingRemoval == graph.pendingRemoval
    ensures |r.calls| >= 1 && r.calls[0].OpenDialog? && r.calls[0].kind == YesNo
    // the "Remove graph" question about the graph's first metric
    ensures r.calls[0] == OpenDialog(YesNo, REMOVE_HEAD, RemoveMessage(graph.datasources[0].metric, machine))
    // after it, only that metric's and this graph's steps
    ensures forall c :: c in r.calls[1..] ==>
      || c == DisableMetric(graph.datasources[0].metric, machine)
      || c == DisassociateMetric(graph.datasources[0].metric, machine)
      || c == RemoveGraph(graph)
    ensures |r.calls| == 1 + (if !didConfirm then 0
                              else (if graph.datasources[0].metric.isPlugin then 1 else 0)
                                   + (if !graph.datasources[0].metric.isPlugin || disabled
                                      then (if disassociated then 2 else 1) else 0))
    ensures DisableMetric(graph.datasources[0].metric, machine) in r.calls <==>
      didConfirm && graph.datasources[0].metric.isPlugin
    ensures DisassociateMetric(graph.datasources[0].metric, machine) in r.calls <==>
      didConfirm && (!graph.datasources[0].metric.isPlugin || disabled)
    ensures RemoveGraph(graph) in r.calls <==>
      didConfirm && (!graph.datasources[0].metric.isPlugin || disabled) && disassociated
    // a failed disable resets the flag and stops before disassociating
    ensures didConfirm && graph.datasources[0].metric.isPlugin && !disabled ==> !r.pendingRemoval
    // otherwise a confirmed removal leaves the flag set, even when disassociating fails
    ensures didConfirm && (!graph.datasources[0].metric.isPlugin || disabled) ==> r.pendingRemoval
    // dialog, then disable, then disassociate, then remove, each at most once
    ensures InChainOrder(r.calls)
    ensures forall c :: c in r.calls ==> RemoveRank(c) < 4
  {
    RemoveSteps(graph, machine, didConfirm, disabled, disassociated, false)
  }

  /** `removeClicked` as evidently intended: every failure along the chain
      resets `pendingRemoval`, so after a confirmed removal the flag stays set
      exactly when the graph is removed. */
  function RemoveClickedIntended(graph: Graph, machine: Machine, didConfirm: bool, disabled: bool,
                                 disassociated: bool): (r: RemoveOutcome)
    requires |graph.datasources| > 0
    ensures !didConfirm ==> |r.calls| == 1 && r.pendingRemoval == graph.pendingRemoval
    ensures didConfirm ==> (r.pendingRemoval <==> RemoveGraph(graph) in r.calls)
    ensures DisassociateMetric(graph.datasources[0].metric, machine) in r.calls <==>
      didConfirm && (!graph.datasources[0].metric.isPlugin || disabled)
  {
    RemoveSteps(graph, machine, didConfirm, disabled, disassociated, true)
  }

  /** The code as written leaves a graph whose disassociation failed marked as
      pending removal, though it stays in place. */
  lemma DisassociateFailureLeavesPending(graph: Graph, machine: Machine, disabled: bool)
    requires |graph.datasources| > 0
    requires !graph.datasources[0].metric.isPlugin || disabled
    ensures var r := RemoveClicked(graph, machine, true, disabled, false);
            r.pendingRemoval && RemoveGraph(graph) !in r.calls
  {
  }
}

=== FILE: lifecycle.dfy ===
/** The view's life cycle: the event subscriptions `load` and `unload`
    manage, showing and hiding the monitoring page (`showMonitoring`,
    `hideMonitoring`, `_showGraphs`, `_hideGraphs`), and the observer that
    picks one of the two when the machine's `hasMonitoring` flag changes. */
module Lifecycle {
  import opened Model
  import opened Collections
  import opened Reconcile
  import opened Events

  datatype Emitter = RulesController | MetricsController

  /** The view's event handlers. */
  datatype Handler = OnRuleAdded | OnRuleDeleted | OnMetricAdded | OnMetricDeleted

  /** One `controller.on(event, view, handler)` registration. */
  datatype Subscription = Subscription(emitter: Emitter, event: string, handler: Handler)

  /** The registrations `load` makes, in its order. The metric deletion event
      is spelled `onMetricDelte` there. */
  const LOADED: seq<Subscription> := [
    Subscription(RulesController, "onRuleAdd", OnRuleAdded),
    Subscription(RulesController, "onRuleDelete", OnRuleDeleted),
    Subscription(MetricsController, "onMetricAdd", OnMetricAdded),
    Subscription(MetricsController, "onMetricDelte", OnMetricDeleted),
    Subscription(MetricsController, "onMetricDisassociate", OnMetricDeleted)
  ]

  /** The registrations `unload` removes, as its own list spells them. */
  const UNLOADED: seq<Subscription> := [
    Subscription(RulesController, "onRuleAdd", OnRuleAdded),
    Subscription(RulesController, "onRuleDelete", OnRuleDeleted),
    Subscription(MetricsController, "onMetricAdd", OnMetricAdded),
    Subscription(MetricsController, "onMetricDelte", OnMetricDeleted),
    Subscription(MetricsController, "onMetricDisassociate", OnMetricDeleted)
  ]

  /** The handlers an event of `emitter` named `event` reaches. */
  function Handlers(active: set<Subscription>, emitter: Emitter, event: string): set<Handler>
  {
    set s | s in active && s.emitter == emitter && s.event == event :: s.handler
  }

  /** The whole monitoring page as far as this view drives it: the view, whether
      the graphs controller is open, and the view's registrations. */
  datatype Page = Page(view: View, graphsOpen: bool, subscriptions: set<Subscription>)

  /** A page and the calls that led to it. */
  datatype Step = Step(page: Page, calls: seq<Call>)

  /** `load`: registers the five handlers; registering an already registered
      pair changes nothing. */
  function Load(p: Page): (r: Page)
    ensures r.view == p.view && r.graphsOpen == p.graphsOpen
    ensures forall s :: s in r.subscriptions <==> s in p.subscriptions || s in LOADED
    ensures Handlers(r.subscriptions, MetricsController, "onMetricDisassociate")
         == Handlers(p.subscriptions, MetricsController, "onMetricDisassociate") + {OnMetricDeleted}
    ensures Handlers(r.subscriptions, RulesController, "onRuleAdd")
         == Handlers(p.subscriptions, RulesController, "onRuleAdd") + {OnRuleAdded}
  {
    var r := p.(subscriptions := p.subscriptions + set s | s in LOADED);
    assert LOADED[4] in LOADED && LOADED[0] in LOADED;
    r
  }

  /** `_hideGraphs`: closes the graphs controller unless it is already closed. */
  function HideGraphs(p: Page): (r: Step)
    ensures !r.page.graphsOpen && r.page.view == p.view && r.page.subscriptions == p.subscriptions
    ensures r.calls == (if p.graphsOpen then [CloseGraphs] else [])
  {
    if !p.graphsOpen then Step(p, []) else Step(p.(graphsOpen := false), [CloseGraphs])
  }

  /** `unload`: removes the five registrations, clears the view's collections
      and closes the graphs if they are open. */
  function Unload(p: Page): (r: Step)
    ensures forall s :: s in r.page.subscriptions <==> s in p.subscriptions && s !in UNLOADED
    ensures r.page.view == Clear(p.view) && !r.page.graphsOpen
    ensures CloseGraphs in r.calls <==> p.graphsOpen
    ensures |r.calls| <= 1
    ensures r.calls == (if p.graphsOpen then [CloseGraphs] else [])
  {
    var off := p.(subscriptions := p.subscriptions - set s | s in UNLOADED);
    HideGraphs(off.(view := Clear(off.view)))
  }

  /** `unload` takes back exactly what `load` registered: the registrations
      the page had before loading, minus the view's own, are all that remain. */
  lemma UnloadUndoesLoad(p: Page)
    requires forall s :: s in p.subscriptions ==> s !in LOADED
    ensures Unload(Load(p)).page.subscriptions == p.subscriptions
  {
    assert LOADED == UNLOADED;
  }

  /** After `load`, the correctly spelled metric deletion event reaches no
      handler of the view that another registration did not already add:
      only `onMetricDelte` and `onMetricDisassociate` reach `_metricDeleted`. */
  lemma LoadedMetricDeletion(p: Page)
    requires p.subscriptions == {}
    ensures Handlers(Load(p).subscriptions, MetricsController, "onMetricDelete") == {}
    ensures Handlers(Load(p).subscriptions, MetricsController, "onMetricDelte") == {OnMetricDeleted}
    ensures Handlers(Load(p).subscriptions, MetricsController, "onMetricDisassociate") == {OnMetricDeleted}
  {
    var active := Load(p).subscriptions;
    assert forall s :: s in active <==> s in LOADED;
    assert LOADED[3] in active && LOADED[4] in active;
  }

  /** `graphs` is ordered by `index`. */
  predicate SortedByIndex(graphs: seq<Graph>)
  {
    forall i, j :: 0 <= i < j < |graphs| ==> graphs[i].index <= graphs[j].index
  }

  /** A graph no later than any of an ordered sequence can go in front of it. */
  lemma PrependSorted(g: Graph, graphs: seq<Graph>)
    requires SortedByIndex(graphs)
    requires forall x :: x in graphs ==> g.index <= x.index
    ensures SortedByIndex([g] + graphs)
  {
    var r := [g] + graphs;
    forall i, j | 0 <= i < j < |r|
      ensures r[i].index <= r[j].index
    {
      assert r[j] == graphs[j - 1] && graphs[j - 1] in graphs;
      if i > 0 {
        assert r[i] == graphs[i - 1];
      }
    }
  }

  /** The tail of an ordered sequence is ordered and bounded below by its head. */
  lemma SortedTail(graphs: seq<Graph>)
    requires graphs != [] && SortedByIndex(graphs)
    ensures SortedByIndex(graphs[1..])
    ensures forall x :: x in graphs[1..] ==> graphs[0].index <= x.index
  {
    var tail := graphs[1..];
    forall i, j | 0 <= i < j < |tail|
      ensures tail[i].index <= tail[j].index
    {
      assert tail[i] == graphs[i + 1] && tail[j] == graphs[j + 1];
    }
    forall x | x in tail
      ensures graphs[0].index <= x.index
    {
      var k :| 0 <= k < |tail| && tail[k] == x;
      assert graphs[k + 1] == x;
    }
  }

  /** A lower bound of `g` and of all of `graphs` bounds any rearrangement of
      them. */
  lemma BoundKept(lo: int, g: Graph, graphs: seq<Graph>, r: seq<Graph>)
    requires lo <= g.index
    requires forall x :: x in graphs ==> lo <= x.index
    requires multiset(r) == multiset(graphs) + multiset{g}
    ensures forall x :: x in r ==> lo <= x.index
  {
    forall x | x in r
      ensures lo <= x.index
    {
      assert x in multiset(r);
      if x != g {
        assert x in multiset(graphs);
      }
    }
  }

  /** Inserts `g` into graphs already ordered by index, after every graph with
      the same index. */
  function InsertByIndex(g: Graph, graphs: seq<Graph>): (r: seq<Graph>)
    requires SortedByIndex(graphs)
    ensures SortedByIndex(r)
    ensures multiset(r) == multiset(graphs) + multiset{g}
  {
    if graphs == [] then [g]
    else
      SortedTail(graphs);
      assert graphs == [graphs[0]] + graphs[1..];
      if g.index < graphs[0].index then
        PrependSorted(g, graphs);
        [g] + graphs
      else
        var rest := InsertByIndex(g, graphs[1..]);
        BoundKept(graphs[0].index, g, graphs[1..], rest);
        PrependSorted(graphs[0], rest);
        [graphs[0]] + rest
  }

  /** `graphs.sortBy('index')`: the same graphs, ordered by index. */
  function SortByIndex(graphs: seq<Graph>): (r: seq<Graph>)
    ensures SortedByIndex(r)
    ensures multiset(r) == multiset(graphs)
  {
    if graphs == [] then []
    else
      assert graphs == graphs[..|graphs| - 1] + [graphs[|graphs| - 1]];
      InsertByIndex(graphs[|graphs| - 1], SortByIndex(graphs[..|graphs| - 1]))
  }

  /** A graph whose index is no smaller than any already placed goes last:
      equal indices keep their order. */
  lemma {:induction false} InsertAtEnd(g: Graph, graphs: seq<Graph>)
    requires SortedByIndex(graphs)
    requires forall x :: x in graphs ==> x.index <= g.index
    ensures InsertByIndex(g, graphs) == graphs + [g]
  {
    if graphs != [] {
      assert graphs == [graphs[0]] + graphs[1..];
      SortedTail(graphs);
      assert graphs[0] in graphs;
      assert forall x :: x in graphs[1..] ==> x in graphs;
      InsertAtEnd(g, graphs[1..]);
      assert !(g.index < graphs[0].index);
      assert InsertByIndex(g, graphs) == [graphs[0]] + InsertByIndex(g, graphs[1..]);
      ConcatAssoc([graphs[0]], graphs[1..], [g]);
    } else {
      assert graphs + [g] == [g];
    }
  }

  /** All but the last of an ordered sequence is ordered and bounded above by
      that last graph. */
  lemma SortedInit(graphs: seq<Graph>)
    requires graphs != [] && SortedByIndex(graphs)
    ensures SortedByIndex(graphs[..|graphs| - 1])
    ensures forall x :: x in graphs[..|graphs| - 1] ==> x.index <= graphs[|graphs| - 1].index
  {
    var init := graphs[..|graphs| - 1];
    forall i, j | 0 <= i < j < |init|
      ensures init[i].index <= init[j].index
    {
      assert init[i] == graphs[i] && init[j] == graphs[j];
    }
    forall x | x in init
      ensures x.index <= graphs[|graphs| - 1].index
    {
      var k :| 0 <= k < |init| && init[k] == x;
      assert graphs[k] == x;
    }
  }

  /** Sorting graphs already ordered by index changes nothing, so graphs with
      the same index stay in the order they came in. */
  lemma {:induction false} SortKeepsOrdered(graphs: seq<Graph>)
    requires SortedByIndex(graphs)
    ensures SortByIndex(graphs) == graphs
  {
    if graphs != [] {
      var init := graphs[..|graphs| - 1];
      var last := graphs[|graphs| - 1];
      assert init + [last] == graphs;
      SortedInit(graphs);
      SortKeepsOrdered(init);
      InsertAtEnd(last, init);
      assert SortByIndex(graphs) == InsertByIndex(last, SortByIndex(init));
    }
  }

  /** A reordering of the graphs holds the same datasource ids. */
  lemma HeldIdsPermutation(a: seq<Graph>, b: seq<Graph>)
    requires multiset(a) == multiset(b)
    ensures HeldIds(a) == HeldIds(b)
  {
    forall id | id in HeldIds(a)
      ensures id in HeldIds(b)
    {
      HeldIdsMeaning(a, id);
      var i, j :| 0 <= i < |a| && 0 <= j < |a[i].datasources| && a[i].datasources[j].id == id;
      assert a[i] in multiset(b);
      var k :| 0 <= k < |b| && b[k] == a[i];
      HeldIdsMeaning(b, id);
    }
    forall id | id in HeldIds(b)
      ensures id in HeldIds(a)
    {
      HeldIdsMeaning(b, id);
      var i, j :| 0 <= i < |b| && 0 <= j < |b[i].datasources| && b[i].datasources[j].id == id;
      assert b[i] in multiset(a);
      var k :| 0 <= k < |a| && a[k] == b[i];
      HeldIdsMeaning(a, id);
    }
  }

  /** `_showGraphs`: unless the graphs controller is already open, orders the
      graphs by index, marks the first stats as pending and opens the graphs
      controller on them with the cookie's time window. */
  function ShowGraphs(p: Page, timeWindow: string): (r: Step)
    ensures p.graphsOpen ==> r == Step(p, [])
    ensures !p.graphsOpen ==>
      && r.page.graphsOpen
      && SortedByIndex(r.page.view.graphs)
      && multiset(r.page.view.graphs) == multiset(p.view.graphs)
      && r.page.view.pendingFirstStats
      && r.calls == [OpenGraphs(r.page.view.graphs, timeWindow)]
    ensures r.page.view.machine == p.view.machine && r.page.view.rules == p.view.rules
    ensures r.page.view.metrics == p.view.metrics && r.page.subscriptions == p.subscriptions
  {
    if p.graphsOpen then Step(p, [])
    else
      var graphs := SortByIndex(p.view.graphs);
      Step(Page(p.view.(graphs := graphs, pendingFirstStats := true), true, p.subscriptions),
           [OpenGraphs(graphs, timeWindow)])
  }

  /** What the rules and metrics controllers hold and the stream's state when
      the page is shown, and the time window of the machine's cookie entry. */
  datatype Sources = Sources(
    rules: seq<Rule>,
    builtIn: seq<Metric>,
    custom: seq<Metric>,
    wasStreaming: bool,
    timeWindow: string)

  /** `rules` holds exactly the rules of `content` that belong to `machine`,
      one per id. */
  predicate RulesOf(rules: seq<Rule>, env: Env, machine: Machine, content: seq<Rule>)
  {
    && (forall x :: x in rules ==> x in content && env.equals(machine, x.machine))
    && (forall i :: 0 <= i < |content| && env.equals(machine, content[i].machine) ==>
          content[i].id in IdSet(rules, RuleId))
    && UniqueIds(rules, RuleId)
  }

  /** `metrics` holds exactly the built-in metrics and the custom metrics
      associated with `machine`, one per id, the built-in ones first. */
  predicate MetricsOf(metrics: seq<Metric>, env: Env, machine: Machine, builtIn: seq<Metric>, custom: seq<Metric>)
  {
    && (forall x :: x in metrics ==> x in builtIn || (x in custom && env.hasMachine(x, machine)))
    && (forall i :: 0 <= i < |builtIn| ==> builtIn[i].id in IdSet(metrics, MetricId))
    && (forall i :: 0 <= i < |custom| && env.hasMachine(custom[i], machine) ==>
          custom[i].id in IdSet(metrics, MetricId))
    && UniqueIds(metrics, MetricId)
    && BuiltInThenCustom(metrics, 0, env, machine, builtIn, custom)
  }

  /** `_updateRules` on an emptied view: exactly the machine's rules, one per id. */
  function RebuildRules(v: View, env: Env, content: seq<Rule>): (rules: seq<Rule>)
    ensures RulesOf(rules, env, v.machine, content)
  {
    var empty := Clear(v);
    assert UniqueIds(empty.rules, RuleId);
    var rules := UpdateRules(empty, env, content).rules;
    assert forall x :: x in rules ==> x in content && env.equals(v.machine, x.machine) by {
      forall x | x in rules
        ensures x in content && env.equals(v.machine, x.machine)
      {
        var i :| 0 <= i < |rules| && rules[i] == x;
      }
    }
    rules
  }

  /** `_updateMetrics` on an emptied view: the built-in metrics, then the
      machine's custom ones, one per id. */
  function RebuildMetrics(v: View, env: Env, builtIn: seq<Metric>, custom: seq<Metric>): (metrics: seq<Metric>)
    ensures MetricsOf(metrics, env, v.machine, builtIn, custom)
  {
    var empty := Clear(v);
    assert UniqueIds(empty.metrics, MetricId);
    var metrics := UpdateMetrics(empty, env, builtIn, custom).metrics;
    assert forall x :: x in metrics ==> x in builtIn || (x in custom && env.hasMachine(x, v.machine)) by {
      forall x | x in metrics
        ensures x in builtIn || (x in custom && env.hasMachine(x, v.machine))
      {
        var i :| 0 <= i < |metrics| && metrics[i] == x;
      }
    }
    metrics
  }

  /** `v` holds what `showMonitoring` rebuilds from `src`: the machine's rules
      and metrics, one per id, and one graph for each datasource of the
      metrics, and no other; no two graphs share a datasource. */
  predicate Rebuilt(v: View, env: Env, src: Sources)
  {
    && RulesOf(v.rules, env, v.machine, src.rules)
    && MetricsOf(v.metrics, env, v.machine, src.builtIn, src.custom)
    && HeldIds(v.graphs) == (set m | m in v.metrics :: DatasourceFor(env, v.machine, m).id)
    && (forall g :: g in v.graphs ==> CreatedFor(env, v.machine, v.metrics, 0, g))
    && DisjointGraphs(v.graphs)
  }

  /** Reordering the graphs of a rebuilt view keeps it rebuilt. */
  lemma RebuiltReordered(v: View, graphs: seq<Graph>, env: Env, src: Sources)
    requires Rebuilt(v, env, src)
    requires multiset(graphs) == multiset(v.graphs)
    ensures Rebuilt(v.(graphs := graphs), env, src)
  {
    HeldIdsPermutation(graphs, v.graphs);
    DisjointReordered(graphs, v.graphs);
    forall g | g in graphs
      ensures g in v.graphs
    {
      assert g in multiset(graphs);
    }
  }

  /** `_updateGraphs` on an emptied view: one graph for each datasource of the
      metrics and no other; the stream is paused once per graph and resumed
      once if it was streaming. */
  function RebuildGraphs(env: Env, machine: Machine, metrics: seq<Metric>, wasStreaming: bool): (r: Pass)
    ensures HeldIds(r.graphs) == set m | m in metrics :: DatasourceFor(env, machine, m).id
    ensures forall g :: g in r.graphs ==> CreatedFor(env, machine, metrics, 0, g)
    ensures DisjointGraphs(r.graphs)
    ensures multiset(r.calls)[StopStream] == |r.graphs|
    ensures StartStream in r.calls <==> wasStreaming && |r.graphs| > 0
    ensures forall c :: c in r.calls ==> c == StopStream || c == StartStream
    ensures StreamDiscipline(r.calls, |r.graphs|, wasStreaming)
  {
    var none: seq<Graph> := [];
    assert HeldIds(none) == {} && DisjointGraphs(none);
    var pass := UpdateGraphs(env, machine, metrics, none, wasStreaming);
    EachCreated(env, machine, metrics, pass.graphs);
    pass
  }

  /** Which graphs the rebuild creates, and in what order: one per first
      metric with each datasource id, in metric order, which is one graph per
      metric when the datasources are distinct; and the stream calls made. */
  lemma RebuildGraphsExact(env: Env, machine: Machine, metrics: seq<Metric>, wasStreaming: bool)
    ensures var r := RebuildGraphs(env, machine, metrics, wasStreaming);
            && r.graphs == GraphsAt(env, machine, metrics, FreshFrom(env, machine, metrics, 0, {}))
            && (DistinctDatasources(env, machine, metrics, 0) ==> r.graphs == CreatedFrom(env, machine, metrics, 0))
            && StreamDiscipline(r.calls, |r.graphs|, wasStreaming)
  {
    var none: seq<Graph> := [];
    assert HeldIds(none) == {};
    UpdateGraphsExact(env, machine, metrics, none, wasStreaming);
    if DistinctDatasources(env, machine, metrics, 0) {
      OneGraphPerMetric(env, machine, metrics, 0, none);
      assert none + CreatedFrom(env, machine, metrics, 0) == CreatedFrom(env, machine, metrics, 0);
    }
  }

  /** A fact about every position is one about every member. */
  lemma EachCreated(env: Env, machine: Machine, metrics: seq<Metric>, graphs: seq<Graph>)
    requires forall i :: 0 <= i < |graphs| ==> CreatedFor(env, machine, metrics, 0, graphs[i])
    ensures forall g :: g in graphs ==> CreatedFor(env, machine, metrics, 0, g)
  {
    forall g | g in graphs
      ensures CreatedFor(env, machine, metrics, 0, g)
    {
      var i :| 0 <= i < |graphs| && graphs[i] == g;
    }
  }

  /** `_clear`, `_updateRules`, `_updateMetrics` and `_updateGraphs` in turn:
      the view rebuilt from scratch, the stream paused once per graph and
      resumed if it was streaming. */
  function Rebuild(p: Page, env: Env, src: Sources): (r: Step)
    ensures r.page.graphsOpen == p.graphsOpen && r.page.subscriptions == p.subscriptions
    ensures r.page.view.machine == p.view.machine && r.page.view.pendingFirstStats == p.view.pendingFirstStats
    ensures Rebuilt(r.page.view, env, src)
    ensures multiset(r.calls)[StopStream] == |r.page.view.graphs|
    ensures StartStream in r.calls <==> src.wasStreaming && |r.page.view.graphs| > 0
    ensures forall c :: c in r.calls ==> c == StopStream || c == StartStream
    ensures StreamDiscipline(r.calls, |r.page.view.graphs|, src.wasStreaming)
  {
    var rules := RebuildRules(p.view, env, src.rules);
    var metrics := RebuildMetrics(p.view, env, src.builtIn, src.custom);
    var pass := RebuildGraphs(env, p.view.machine, metrics, src.wasStreaming);
    Step(p.(view := Clear(p.view).(rules := rules, metrics := metrics, graphs := pass.graphs)), pass.calls)
  }

  /** The open `_showGraphs` makes: one, on the time window, unless the
      graphs were already open. */
  function OpenCalls(graphs: seq<Graph>, src: Sources, wasOpen: bool): (calls: seq<Call>)
    ensures |calls| == if wasOpen then 0 else 1
    ensures forall c :: c in calls ==> c == OpenGraphs(graphs, src.timeWindow)
  {
    if wasOpen then [] else [OpenGraphs(graphs, src.timeWindow)]
  }

  /** The calls `showMonitoring` makes, given the graphs it ends with: first
      the stream calls of the rebuild (paused once per graph, resumed once,
      last, if it was streaming), then the open of the graphs on the time
      window unless they were already open. No other call. */
  predicate ShowCalls(calls: seq<Call>, graphs: seq<Graph>, src: Sources, wasOpen: bool)
  {
    var n := if wasOpen then 0 else 1;
    && n <= |calls|
    && StreamDiscipline(calls[..|calls| - n], |graphs|, src.wasStreaming)
    && calls[|calls| - n..] == OpenCalls(graphs, src, wasOpen)
  }

  /** The stream calls of a rebuild followed by what `_showGraphs` calls are
      what `showMonitoring` promises. */
  lemma StreamThenOpen(stream: seq<Call>, opens: seq<Call>, graphs: seq<Graph>, src: Sources, wasOpen: bool)
    requires StreamDiscipline(stream, |graphs|, src.wasStreaming)
    requires opens == OpenCalls(graphs, src, wasOpen)
    ensures ShowCalls(stream + opens, graphs, src, wasOpen)
  {
    var calls := stream + opens;
    assert calls[..|stream|] == stream;
    assert calls[|stream|..] == opens;
  }

  /** The only graphs-controller call `showMonitoring` can make is an open,
      and only when the graphs were closed; it makes one then, as its last
      call. */
  lemma ShowCallsOpenOnly(calls: seq<Call>, graphs: seq<Graph>, src: Sources, wasOpen: bool)
    requires ShowCalls(calls, graphs, src, wasOpen)
    ensures forall c :: c in calls && c.OpenGraphs? ==> !wasOpen
    ensures CloseGraphs !in calls
    ensures !wasOpen ==> calls != [] && calls[|calls| - 1] == OpenGraphs(graphs, src.timeWindow)
    ensures multiset(calls)[StopStream] == |graphs|
    ensures multiset(calls)[StartStream] == (if src.wasStreaming && |graphs| > 0 then 1 else 0)
  {
    var n := if wasOpen then 0 else 1;
    var stream := calls[..|calls| - n];
    var opens := calls[|calls| - n..];
    assert calls == stream + opens;
    assert multiset(calls) == multiset(stream) + multiset(opens);
    assert StopStream !in opens && StartStream !in opens && CloseGraphs !in opens;
    forall c | c in calls
      ensures c in stream || c in opens
    {
      var i :| 0 <= i < |calls| && calls[i] == c;
      if i < |stream| {
        assert stream[i] == c;
      } else {
        assert opens[i - |stream|] == c;
      }
    }
  }

  /** `showMonitoring`: clears the view, rebuilds rules, metrics and graphs,
      then shows the graphs. */
  function ShowMonitoring(p: Page, env: Env, src: Sources): (r: Step)
    ensures r.page.view.machine == p.view.machine && r.page.subscriptions == p.subscriptions
    ensures r.page.graphsOpen
    ensures Rebuilt(r.page.view, env, src)
    ensures ShowCalls(r.calls, r.page.view.graphs, src, p.graphsOpen)
    // the graphs are shown in index order, unless they already were shown
    ensures !p.graphsOpen ==> SortedByIndex(r.page.view.graphs) && r.page.view.pendingFirstStats
  {
    var rebuilt := Rebuild(p, env, src);
    var shown := ShowGraphs(rebuilt.page, src.timeWindow);
    RebuiltReordered(rebuilt.page.view, shown.page.view.graphs, env, src);
    assert shown.page.view == rebuilt.page.view.(graphs := shown.page.view.graphs,
                                                 pendingFirstStats := shown.page.view.pendingFirstStats);
    assert |shown.page.view.graphs| == |rebuilt.page.view.graphs| by {
      assert |multiset(shown.page.view.graphs)| == |multiset(rebuilt.page.view.graphs)|;
    }
    StreamThenOpen(rebuilt.calls, shown.calls, shown.page.view.graphs, src, p.graphsOpen);
    Step(shown.page.(graphsOpen := true), rebuilt.calls + shown.calls)
  }

  /** `hideMonitoring`: hides the graphs, then clears the view. */
  function HideMonitoring(p: Page): (r: Step)
    ensures r.page.view.rules == [] && r.page.view.metrics == [] && r.page.view.graphs == []
    ensures r.page.view.machine == p.view.machine && r.page.subscriptions == p.subscriptions
    ensures !r.page.graphsOpen
    ensures CloseGraphs in r.calls <==> p.graphsOpen
    ensures forall c :: c in r.calls ==> c == CloseGraphs
    ensures r.calls == (if p.graphsOpen then [CloseGraphs] else [])
  {
    var hidden := HideGraphs(p);
    Step(hidden.page.(view := Clear(hidden.page.view)), hidden.calls)
  }

  /** `hasMonitoringObserver`: shows the monitoring page when the machine has
      monitoring, hides it otherwise. */
  function HasMonitoringObserver(p: Page, env: Env, src: Sources): (r: Step)
    ensures r.page.graphsOpen <==> p.view.machine.hasMonitoring
    ensures r.page.view.machine == p.view.machine && r.page.subscriptions == p.subscriptions
    ensures !p.view.machine.hasMonitoring ==>
      r.page.view.rules == [] && r.page.view.metrics == [] && r.page.view.graphs == []
    ensures p.view.machine.hasMonitoring ==> Rebuilt(r.page.view, env, src)
    ensures forall c :: c in r.calls && c.OpenGraphs? ==> p.view.machine.hasMonitoring && !p.graphsOpen
    ensures CloseGraphs in r.calls <==> !p.view.machine.hasMonitoring && p.graphsOpen
    ensures p.view.machine.hasMonitoring ==> ShowCalls(r.calls, r.page.view.graphs, src, p.graphsOpen)
    ensures !p.view.machine.hasMonitoring ==> r.calls == (if p.graphsOpen then [CloseGraphs] else [])
  {
    if p.view.machine.hasMonitoring then
      var r := ShowMonitoring(p, env, src);
      ShowCallsOpenOnly(r.calls, r.page.view.graphs, src, p.graphsOpen);
      r
    else HideMonitoring(p)
  }

  /** The `metrics.@each` observer schedules one more reconciliation pass after
      `showMonitoring`; that pass finds every datasource held, adds nothing
      and leaves the stream alone. */
  lemma DeferredPassAfterShow(p: Page, env: Env, src: Sources, wasStreaming: bool)
    ensures var v := ShowMonitoring(p, env, src).page.view;
            UpdateGraphs(env, v.machine, v.metrics, v.graphs, wasStreaming) == Pass(v.graphs, [])
  {
    var v := ShowMonitoring(p, env, src).page.view;
    forall k | 0 <= k < |v.metrics|
      ensures DatasourceFor(env, v.machine, v.metrics[k]).id in HeldIds(v.graphs)
    {
      assert v.metrics[k] in v.metrics;
    }
    NothingToAdd(env, v.machine, v.metrics, 0, v.graphs);
  }

  /** Hiding right after showing leaves an empty view and closes the graphs it
      opened. */
  lemma ShowThenHide(p: Page, env: Env, src: Sources)
    ensures var h := HideMonitoring(ShowMonitoring(p, env, src).page);
            h.page.view == Clear(p.view).(pendingFirstStats := h.page.view.pendingFirstStats) &&
            h.calls == [CloseGraphs] && !h.page.graphsOpen
  {
  }
}

=== FILE: model.dfy ===
/** The records the machine monitoring view works on, the calls it makes to
    the controllers around it, and the unseen collaborators it consults.

    Object identity in the view's collections (the identity `pushObject`,
    `removeObject` and `===` use) is modelled as value equality of these
    records. */
module Model {

  datatype Option<T> = None | Some(value: T)

  /** A monitored machine; `probed` means the agent could reach it over SSH. */
  datatype Machine = Machine(id: string, name: string, probed: bool, hasMonitoring: bool)

  /** A monitoring rule, owned by one machine. */
  datatype Rule = Rule(id: string, machine: Machine)

  /** A metric; `isPlugin` marks a custom metric backed by an installed plugin. */
  datatype Metric = Metric(id: string, name: string, isPlugin: bool)

  /** The pairing of one metric with one machine. */
  datatype Datasource = Datasource(id: string, metric: Metric, machine: Machine)

  /** A graph of the monitoring page. */
  datatype Graph = Graph(
    title: string,
    index: int,
    isHidden: bool,
    datasources: seq<Datasource>,
    pendingRemoval: bool)

  /** One persisted per-graph view preference of a machine's cookie entry. */
  datatype GraphPref = GraphPref(key: string, index: int, hidden: bool)

  datatype DialogKind = Ok | OkCancel | YesNo

  /** Every call the view makes on a controller outside itself. */
  datatype Call =
    | OpenLogin
    | OpenDialog(kind: DialogKind, head: string, detail: string)
    | GetMonitoringCommand(machine: Machine)
    | EnableMonitoring(machine: Machine, forced: bool)
    | DisableMonitoring(machine: Machine)
    | DisableMetric(metric: Metric, machine: Machine)
    | DisassociateMetric(metric: Metric, machine: Machine)
    | RemoveGraph(graph: Graph)
    | StopStream
    | StartStream
    | OpenGraphs(graphs: seq<Graph>, timeWindow: string)
    | CloseGraphs

  /** The collaborators whose code is not part of this model, as pure functions:
      `Machine.equals`, whether the view's machine has an `equals` at all,
      `Metric.hasMachine`, the id `Datasource.create` gives a (metric id,
      machine id) pair, and the cookie controller's per-graph entry lookup. */
  datatype Env = Env(
    equals: (Machine, Machine) -> bool,
    canCompare: bool,
    hasMachine: (Metric, Machine) -> bool,
    datasourceId: (string, string) -> string,
    graphEntry: (Machine, Graph) -> GraphPref)

  /** The view's own state for the machine it shows. */
  datatype View = View(
    machine: Machine,
    rules: seq<Rule>,
    metrics: seq<Metric>,
    graphs: seq<Graph>,
    pendingFirstStats: bool)

  function RuleId(r: Rule): string { r.id }

  function MetricId(m: Metric): string { m.id }
}

=== FILE: preferences.dfy ===
/** The per-graph preferences persisted in a machine's cookie entry, and the
    two actions that edit them: collapsing a graph (`collapseClicked`) and
    expanding it again (`graphButtonClicked`).

    The entry's `graphs` object is a list of keyed entries in the order a
    `forIn` over it visits them. */
module Preferences {
  import opened Model

  /** One `forIn` pass over the entries from position `q` on: every entry whose
      index is above `i` drops by one, and `e` ends as the position of the last
      entry whose index is `i` (the callback's `e`), or stays as given. */
  function Renumber(prefs: seq<GraphPref>, i: int, q: nat, e: Option<nat>): (r: (seq<GraphPref>, Option<nat>))
    requires q <= |prefs|
    requires e.Some? ==> e.value < q
    ensures |r.0| == |prefs|
    ensures forall p :: 0 <= p < q ==> r.0[p] == prefs[p]
    ensures forall p :: q <= p < |prefs| && prefs[p].index > i ==> r.0[p] == prefs[p].(index := prefs[p].index - 1)
    ensures forall p :: q <= p < |prefs| && prefs[p].index <= i ==> r.0[p] == prefs[p]
    ensures r.1.Some? ==> r.1.value < |prefs|
    ensures (exists p :: q <= p < |prefs| && prefs[p].index == i)
            ==> r.1.Some? && q <= r.1.value && prefs[r.1.value].index == i &&
                forall p :: r.1.value < p < |prefs| ==> prefs[p].index != i
    ensures (forall p :: q <= p < |prefs| ==> prefs[p].index != i) ==> r.1 == e
    decreases |prefs| - q
  {
    if q == |prefs| then (prefs, e)
    else if prefs[q].index == i then Renumber(prefs, i, q + 1, Some(q))
    else if prefs[q].index > i then Renumber(prefs[q := prefs[q].(index := prefs[q].index - 1)], i, q + 1, e)
    else Renumber(prefs, i, q + 1, e)
  }

  /** Some entry holds index `i`: what `collapseClicked` needs, since it
      dereferences the matched entry without checking that there was one. */
  predicate HasIndex(prefs: seq<GraphPref>, i: int)
  {
    exists p :: 0 <= p < |prefs| && prefs[p].index == i
  }

  /** The entries after a collapse, the collapsed graph, and the position of
      the entry that took the collapsed graph's place at the end. */
  datatype Collapsed = Collapsed(prefs: seq<GraphPref>, graph: Graph, slot: nat)

  /** `collapseClicked(graph)` with `metricCount` the view's `metrics.length`:
      hides the graph, closes the gap its index leaves among the persisted
      entries and moves its entry to the last index. */
  function Collapse(prefs: seq<GraphPref>, graph: Graph, metricCount: nat): (r: Collapsed)
    requires HasIndex(prefs, graph.index)
    ensures |r.prefs| == |prefs| && r.slot < |prefs|
    ensures forall p :: 0 <= p < |prefs| ==> r.prefs[p].key == prefs[p].key
    // entries above the collapsed index drop by one
    ensures forall p :: 0 <= p < |prefs| && prefs[p].index > graph.index ==>
      r.prefs[p] == prefs[p].(index := prefs[p].index - 1)
    // entries below it are unchanged
    ensures forall p :: 0 <= p < |prefs| && prefs[p].index < graph.index ==> r.prefs[p] == prefs[p]
    // the last entry at the collapsed index becomes hidden and last
    ensures prefs[r.slot].index == graph.index
    ensures forall p :: r.slot < p < |prefs| ==> prefs[p].index != graph.index
    ensures r.prefs[r.slot] == prefs[r.slot].(index := metricCount - 1, hidden := true)
    // any earlier entry at the collapsed index is left alone
    ensures forall p :: 0 <= p < |prefs| && p != r.slot && prefs[p].index == graph.index ==> r.prefs[p] == prefs[p]
    ensures r.graph == graph.(isHidden := true, index := metricCount - 1)
  {
    var pass := Renumber(prefs, graph.index, 0, None);
    var slot := pass.1.value;
    var last := metricCount - 1;
    Collapsed(pass.0[slot := pass.0[slot].(index := last, hidden := true)],
              graph.(isHidden := true, index := last),
              slot)
  }

  /** The persisted indices are a permutation of `0..n-1`. */
  predicate IsPermutation(prefs: seq<GraphPref>, n: nat)
  {
    && |prefs| == n
    && (forall p :: 0 <= p < n ==> 0 <= prefs[p].index < n)
    && (forall p, q :: 0 <= p < q < n ==> prefs[p].index != prefs[q].index)
  }

  /** Every visible graph's index is below every hidden graph's index. */
  predicate VisibleFirst(prefs: seq<GraphPref>)
  {
    forall p, q :: 0 <= p < |prefs| && 0 <= q < |prefs| && !prefs[p].hidden && prefs[q].hidden ==>
      prefs[p].index < prefs[q].index
  }

  /** Collapsing keeps the persisted indices a permutation of `0..n-1` when
      `n` is the number of metrics. */
  lemma CollapseKeepsPermutation(prefs: seq<GraphPref>, graph: Graph, n: nat)
    requires HasIndex(prefs, graph.index)
    requires IsPermutation(prefs, n)
    ensures IsPermutation(Collapse(prefs, graph, n).prefs, n)
  {
    var r := Collapse(prefs, graph, n);
    forall p, q | 0 <= p < q < n
      ensures r.prefs[p].index != r.prefs[q].index
    {
      if p != r.slot && q != r.slot {
        assert prefs[p].index != prefs[q].index;
      }
    }
  }

  /** Collapsing keeps every visible graph before every hidden one. */
  lemma CollapseKeepsVisibleFirst(prefs: seq<GraphPref>, graph: Graph, n: nat)
    requires HasIndex(prefs, graph.index)
    requires IsPermutation(prefs, n)
    requires VisibleFirst(prefs)
    ensures VisibleFirst(Collapse(prefs, graph, n).prefs)
  {
    var r := Collapse(prefs, graph, n);
    forall p, q | 0 <= p < n && 0 <= q < n && !r.prefs[p].hidden && r.prefs[q].hidden
      ensures r.prefs[p].index < r.prefs[q].index
    {
      assert p != r.slot;
      assert prefs[p].index != graph.index by {
        assert prefs[p].index != prefs[r.slot].index;
      }
      if q != r.slot {
        assert prefs[q].index != graph.index by {
          assert prefs[q].index != prefs[r.slot].index;
        }
        assert prefs[p].index < prefs[q].index;
      }
    }
  }

  /** Keys of a cookie entry's `graphs` object are distinct. */
  predicate UniqueKeys(prefs: seq<GraphPref>)
  {
    forall p, q :: 0 <= p < q < |prefs| ==> prefs[p].key != prefs[q].key
  }

  /** `graphButtonClicked(graph)`: shows the graph and clears the `hidden`
      flag of the entry `getSingleMachineGraphEntry` finds for it, under the
      key that lookup reports, leaving every index where it is. */
  function Expand(prefs: seq<GraphPref>, env: Env, machine: Machine, graph: Graph): (r: (seq<GraphPref>, Graph))
    requires UniqueKeys(prefs)
    requires exists p :: 0 <= p < |prefs| && prefs[p].key == env.graphEntry(machine, graph).key
    ensures |r.0| == |prefs|
    ensures forall p :: 0 <= p < |prefs| ==> r.0[p].key == prefs[p].key && r.0[p].index == prefs[p].index
    // only the graph's own entry is shown again
    ensures forall p :: 0 <= p < |prefs| ==>
      r.0[p].hidden == (prefs[p].hidden && prefs[p].key != env.graphEntry(machine, graph).key)
    ensures r.1 == graph.(isHidden := false)
  {
    var key := env.graphEntry(machine, graph).key;
    (seq(|prefs|, p requires 0 <= p < |prefs| =>
       if prefs[p].key == key then prefs[p].(hidden := false) else prefs[p]),
     graph.(isHidden := false))
  }

  /** Expanding never moves an index, so the permutation survives. */
  lemma ExpandKeepsPermutation(prefs: seq<GraphPref>, env: Env, machine: Machine, graph: Graph, n: nat)
    requires UniqueKeys(prefs)
    requires exists p :: 0 <= p < |prefs| && prefs[p].key == env.graphEntry(machine, graph).key
    requires IsPermutation(prefs, n)
    ensures IsPermutation(Expand(prefs, env, machine, graph).0, n)
  {
  }

  /** Expanding what was just collapsed, when the lookup finds the entry the
      collapse moved, leaves that entry visible at the last index and the
      graph shown there. */
  lemma CollapseThenExpand(prefs: seq<GraphPref>, env: Env, machine: Machine, graph: Graph, n: nat)
    requires HasIndex(prefs, graph.index)
    requires UniqueKeys(prefs)
    requires var c := Collapse(prefs, graph, n);
             env.graphEntry(machine, c.graph).key == prefs[c.slot].key
    ensures var c := Collapse(prefs, graph, n);
            var e := Expand(c.prefs, env, machine, c.graph);
            e.0[c.slot] == prefs[c.slot].(index := n - 1, hidden := false) &&
            e.1 == graph.(index := n - 1, isHidden := false)
  {
    var c := Collapse(prefs, graph, n);
    assert UniqueKeys(c.prefs);
  }

  /** Collapsing the graph at index 1 of three visible graphs at 0, 1, 2. */
  lemma CollapseExample(prefs: seq<GraphPref>, graph: Graph)
    requires prefs == [GraphPref("a", 0, false), GraphPref("b", 1, false), GraphPref("c", 2, false)]
    requires graph.index == 1
    ensures HasIndex(prefs, graph.index)
    ensures Collapse(prefs, graph, 3).prefs
         == [GraphPref("a", 0, false), GraphPref("b", 2, true), GraphPref("c", 1, false)]
  {
    assert prefs[1].index == graph.index;
  }

  /** Collapsing two of three graphs: the graph collapsed first ends below the
      last index, so not every hidden entry holds the last index. */
  lemma CollapseTwiceExample(prefs: seq<GraphPref>, first: Graph, second: Graph)
    requires prefs == [GraphPref("a", 0, false), GraphPref("b", 1, false), GraphPref("c", 2, false)]
    requires first.index == 1 && second.index == 1
    ensures HasIndex(prefs, first.index)
    ensures HasIndex(Collapse(prefs, first, 3).prefs, second.index)
    ensures Collapse(Collapse(prefs, first, 3).prefs, second, 3).prefs
         == [GraphPref("a", 0, false), GraphPref("b", 1, true), GraphPref("c", 2, true)]
  {
    CollapseExample(prefs, first);
    var once := Collapse(prefs, first, 3).prefs;
    assert once[2].index == second.index;
  }

  /** Expanding keeps every index where it is, so showing again a graph that
      was not the last one collapsed leaves it behind a hidden one: after the
      two collapses above, expanding "c" makes the visible "c" sit at 2 behind
      the hidden "b" at 1. */
  lemma ExpandAfterCollapsesExample(prefs: seq<GraphPref>, env: Env, machine: Machine, graph: Graph)
    requires prefs == [GraphPref("a", 0, false), GraphPref("b", 1, true), GraphPref("c", 2, true)]
    requires env.graphEntry(machine, graph).key == "c"
    ensures VisibleFirst(prefs) && IsPermutation(prefs, 3)
    ensures UniqueKeys(prefs) && prefs[2].key == env.graphEntry(machine, graph).key
    ensures Expand(prefs, env, machine, graph).0
         == [GraphPref("a", 0, false), GraphPref("b", 1, true), GraphPref("c", 2, false)]
    ensures !VisibleFirst(Expand(prefs, env, machine, graph).0)
  {
    assert prefs[2].key == env.graphEntry(machine, graph).key;
    var e := Expand(prefs, env, machine, graph).0;
    assert !e[2].hidden && e[1].hidden && !(e[2].index < e[1].index);
  }
}

=== FILE: reconcile.dfy ===
/** Graph reconciliation (`_updateGraphs`): one pass over the view's metrics
    that appends a graph for every metric whose datasource no graph holds yet,
    pausing the live stream around the additions. */
module Reconcile {
  import opened Model
  import opened Collections

  /** `Datasource.create({metric, machine})`. */
  function DatasourceFor(env: Env, machine: Machine, metric: Metric): Datasource
  {
    Datasource(env.datasourceId(metric.id, machine.id), metric, machine)
  }

  /** The datasource ids `graph.datasources.findBy('id', …)` can find. */
  function GraphIds(graph: Graph): set<string>
  {
    set d | d in graph.datasources :: d.id
  }

  /** The datasource ids some graph of `graphs` holds: the ids for which
      `graphs.some(g => g.datasources.findBy('id', …))` succeeds. */
  function HeldIds(graphs: seq<Graph>): set<string>
  {
    if graphs == [] then {}
    else HeldIds(graphs[..|graphs| - 1]) + GraphIds(graphs[|graphs| - 1])
  }

  /** `HeldIds` is exactly what `some` + `findBy` searches. */
  lemma {:induction false} HeldIdsMeaning(graphs: seq<Graph>, id: string)
    ensures id in HeldIds(graphs) <==>
      exists i, j :: 0 <= i < |graphs| && 0 <= j < |graphs[i].datasources| && graphs[i].datasources[j].id == id
  {
    if graphs != [] {
      var init := graphs[..|graphs| - 1];
      HeldIdsMeaning(init, id);
      var last := graphs[|graphs| - 1];
      if id in GraphIds(last) {
        var d :| d in last.datasources && d.id == id;
        var j :| 0 <= j < |last.datasources| && last.datasources[j] == d;
        assert graphs[|graphs| - 1].datasources[j].id == id;
      }
      if id in HeldIds(init) {
        var i, j :| 0 <= i < |init| && 0 <= j < |init[i].datasources| && init[i].datasources[j].id == id;
        assert graphs[i] == init[i];
      }
      if exists i, j :: 0 <= i < |graphs| && 0 <= j < |graphs[i].datasources| && graphs[i].datasources[j].id == id {
        var i, j :| 0 <= i < |graphs| && 0 <= j < |graphs[i].datasources| && graphs[i].datasources[j].id == id;
        if i < |init| {
          assert init[i] == graphs[i];
        } else {
          assert graphs[i].datasources[j] in last.datasources;
        }
      }
    }
  }

  /** The datasource ids of the metrics at positions `pos..` of `metrics`. */
  function WantedIds(env: Env, machine: Machine, metrics: seq<Metric>, pos: nat): set<string>
  {
    set k | pos <= k < |metrics| :: DatasourceFor(env, machine, metrics[k]).id
  }

  /** The graph created for the metric at position `pos`: title and datasource
      from the metric, `index` first the position, then `isHidden` and `index`
      read, in that order, from the graph's cookie entry. */
  function NewGraph(env: Env, machine: Machine, metric: Metric, pos: nat): (r: Graph)
    ensures r.title == metric.name && !r.pendingRemoval
    ensures r.datasources == [DatasourceFor(env, machine, metric)]
    ensures GraphIds(r) == {DatasourceFor(env, machine, metric).id}
    // `isHidden` is looked up for the graph as created, at index `pos` ...
    ensures r.isHidden == env.graphEntry(machine, Graph(metric.name, pos, false, r.datasources, false)).hidden
    // ... and `index` for the graph with that `isHidden` already set
    ensures r.index == env.graphEntry(machine, r.(index := pos)).index
  {
    var created := Graph(metric.name, pos, false, [DatasourceFor(env, machine, metric)], false);
    var shown := created.(isHidden := env.graphEntry(machine, created).hidden);
    shown.(index := env.graphEntry(machine, shown).index)
  }

  lemma HeldIdsAppend(graphs: seq<Graph>, g: Graph)
    ensures HeldIds(graphs + [g]) == HeldIds(graphs) + GraphIds(g)
  {
    assert (graphs + [g])[..|graphs|] == graphs;
  }

  lemma WantedIdsNext(env: Env, machine: Machine, metrics: seq<Metric>, pos: nat)
    requires pos < |metrics|
    ensures WantedIds(env, machine, metrics, pos)
         == {DatasourceFor(env, machine, metrics[pos]).id} + WantedIds(env, machine, metrics, pos + 1)
  {
  }

  /** A graph of `graphs` holds no id that another graph holds. */
  predicate DisjointGraphs(graphs: seq<Graph>)
  {
    forall i, j :: 0 <= i < j < |graphs| ==> GraphIds(graphs[i]) !! GraphIds(graphs[j])
  }

  /** Every graph's ids are among the held ones. */
  lemma {:induction false} HeldIdsHas(graphs: seq<Graph>, i: nat)
    requires i < |graphs|
    ensures GraphIds(graphs[i]) <= HeldIds(graphs)
  {
    var n := |graphs| - 1;
    if i < n {
      HeldIdsHas(graphs[..n], i);
      assert graphs[..n][i] == graphs[i];
    }
  }

  /** `g` is the graph created for one of the metrics at positions `pos..`. */
  predicate CreatedFor(env: Env, machine: Machine, metrics: seq<Metric>, pos: nat, g: Graph)
  {
    exists k :: pos <= k < |metrics| && g == NewGraph(env, machine, metrics[k], k)
  }

  /** The graph at position `i` holds one datasource, which no graph before
      it holds. */
  predicate AddsDatasource(graphs: seq<Graph>, i: int)
    requires 0 <= i < |graphs|
  {
    |graphs[i].datasources| == 1 && graphs[i].datasources[0].id !in HeldIds(graphs[..i])
  }

  /** Graphs each adding a fresh datasource, appended to disjoint graphs,
      leave them disjoint. */
  lemma DisjointAfterAdding(graphs: seq<Graph>, n: nat)
    requires n <= |graphs| && DisjointGraphs(graphs[..n])
    requires forall i :: n <= i < |graphs| ==> AddsDatasource(graphs, i)
    ensures DisjointGraphs(graphs)
  {
    forall i, j | 0 <= i < j < |graphs|
      ensures GraphIds(graphs[i]) !! GraphIds(graphs[j])
    {
      if j < n {
        assert graphs[..n][i] == graphs[i] && graphs[..n][j] == graphs[j];
      } else {
        assert AddsDatasource(graphs, j);
        var g := graphs[j];
        assert g.datasources == [g.datasources[0]];
        assert GraphIds(g) == {g.datasources[0].id};
        HeldIdsHas(graphs[..j], i);
        assert graphs[..j][i] == graphs[i];
      }
    }
  }

  /** Reordering disjoint graphs keeps them disjoint. */
  lemma DisjointReordered(graphs: seq<Graph>, from: seq<Graph>)
    requires DisjointGraphs(from) && multiset(graphs) == multiset(from)
    ensures DisjointGraphs(graphs)
  {
    forall i, j | 0 <= i < j < |graphs|
      ensures GraphIds(graphs[i]) !! GraphIds(graphs[j])
    {
      assert graphs[i] in multiset(from) && graphs[j] in multiset(from);
      if graphs[i] == graphs[j] {
        // a graph held twice can only be one with no datasource
        CountTwo(graphs, i, j);
        TwoPositions(from, graphs[i]);
        var p, q :| 0 <= p < q < |from| && from[p] == graphs[i] && from[q] == graphs[i];
        assert GraphIds(from[p]) !! GraphIds(from[q]);
      } else {
        var p :| 0 <= p < |from| && from[p] == graphs[i];
        var q :| 0 <= q < |from| && from[q] == graphs[j];
        if p < q {
          assert GraphIds(from[p]) !! GraphIds(from[q]);
        } else {
          assert GraphIds(from[q]) !! GraphIds(from[p]);
        }
      }
    }
  }

  /** One step of the `forEach`: the graphs after examining the metric at
      position `pos`. */
  function Visit(env: Env, machine: Machine, metric: Metric, pos: nat, graphs: seq<Graph>): seq<Graph>
  {
    if DatasourceFor(env, machine, metric).id in HeldIds(graphs) then graphs
    else graphs + [NewGraph(env, machine, metric, pos)]
  }

  /** The `forEach` of `_updateGraphs` from position `pos` on: each graph is
      appended before the next metric is examined, so a later duplicate metric
      finds the graph its first occurrence created. */
  function AddGraphs(env: Env, machine: Machine, metrics: seq<Metric>, pos: nat, graphs: seq<Graph>): (r: seq<Graph>)
    requires pos <= |metrics|
    // existing graphs stay, in their order
    ensures |graphs| <= |r| && r[..|graphs|] == graphs
    // afterwards exactly the old ids and every visited metric's id are held
    ensures HeldIds(r) == HeldIds(graphs) + WantedIds(env, machine, metrics, pos)
    decreases |metrics| - pos
  {
    if pos == |metrics| then graphs
    else
      var next := Visit(env, machine, metrics[pos], pos, graphs);
      var id := DatasourceFor(env, machine, metrics[pos]).id;
      assert HeldIds(next) == HeldIds(graphs) + {id} by {
        if id !in HeldIds(graphs) {
          var g := NewGraph(env, machine, metrics[pos], pos);
          HeldIdsAppend(graphs, g);
          assert GraphIds(g) == {id};
        }
      }
      WantedIdsNext(env, machine, metrics, pos);
      var r := AddGraphs(env, machine, metrics, pos + 1, next);
      assert r[..|graphs|] == r[..|next|][..|graphs|];
      r
  }

  /** The metric at position `k` is the first of `metrics[pos..]` with its
      datasource id, and that id is not in `held`. */
  predicate FirstFresh(env: Env, machine: Machine, metrics: seq<Metric>, pos: nat, held: set<string>, k: int)
  {
    && pos <= k < |metrics|
    && DatasourceFor(env, machine, metrics[k]).id !in held
    && forall j :: pos <= j < k ==>
         DatasourceFor(env, machine, metrics[j]).id != DatasourceFor(env, machine, metrics[k]).id
  }

  /** The positions of `metrics[pos..]` that are `FirstFresh`, in increasing
      order. */
  function FreshFrom(env: Env, machine: Machine, metrics: seq<Metric>, pos: nat, held: set<string>): (ps: seq<nat>)
    requires pos <= |metrics|
    ensures forall i :: 0 <= i < |ps| ==> ps[i] < |metrics|
    ensures forall i :: 0 <= i < |ps| ==> FirstFresh(env, machine, metrics, pos, held, ps[i])
    ensures forall i, j :: 0 <= i < j < |ps| ==> ps[i] < ps[j]
    ensures forall k :: FirstFresh(env, machine, metrics, pos, held, k) ==> k in ps
    decreases |metrics| - pos
  {
    if pos == |metrics| then []
    else
      var id := DatasourceFor(env, machine, metrics[pos]).id;
      if id in held then FreshFrom(env, machine, metrics, pos + 1, held)
      else [pos] + FreshFrom(env, machine, metrics, pos + 1, held + {id})
  }

  /** The graphs created for the metrics at positions `ps`, in that order. */
  function GraphsAt(env: Env, machine: Machine, metrics: seq<Metric>, ps: seq<nat>): (r: seq<Graph>)
    requires forall i :: 0 <= i < |ps| ==> ps[i] < |metrics|
    ensures |r| == |ps|
    ensures forall i :: 0 <= i < |ps| ==> r[i] == NewGraph(env, machine, metrics[ps[i]], ps[i])
  {
    if ps == [] then []
    else [NewGraph(env, machine, metrics[ps[0]], ps[0])] + GraphsAt(env, machine, metrics, ps[1..])
  }

  /** A pass appends exactly one graph for each metric that is the first with
      a datasource id no graph holds yet, in metric order, each created from
      that metric and its position. */
  lemma {:induction false} AddGraphsExact(env: Env, machine: Machine, metrics: seq<Metric>, pos: nat, graphs: seq<Graph>)
    requires pos <= |metrics|
    ensures AddGraphs(env, machine, metrics, pos, graphs)
         == graphs + GraphsAt(env, machine, metrics, FreshFrom(env, machine, metrics, pos, HeldIds(graphs)))
    decreases |metrics| - pos
  {
    var held := HeldIds(graphs);
    if pos == |metrics| {
      assert graphs + [] == graphs;
    } else {
      var id := DatasourceFor(env, machine, metrics[pos]).id;
      var next := Visit(env, machine, metrics[pos], pos, graphs);
      assert AddGraphs(env, machine, metrics, pos, graphs) == AddGraphs(env, machine, metrics, pos + 1, next);
      AddGraphsExact(env, machine, metrics, pos + 1, next);
      if id !in held {
        FreshStep(env, machine, metrics, pos, graphs);
      }
    }
  }

  /** One fresh metric: its graph, then the rest of the pass. */
  lemma FreshStep(env: Env, machine: Machine, metrics: seq<Metric>, pos: nat, graphs: seq<Graph>)
    requires pos < |metrics|
    requires DatasourceFor(env, machine, metrics[pos]).id !in HeldIds(graphs)
    ensures var g := NewGraph(env, machine, metrics[pos], pos);
            var rest := FreshFrom(env, machine, metrics, pos + 1, HeldIds(graphs + [g]));
            graphs + GraphsAt(env, machine, metrics, FreshFrom(env, machine, metrics, pos, HeldIds(graphs)))
            == (graphs + [g]) + GraphsAt(env, machine, metrics, rest)
  {
    var g := NewGraph(env, machine, metrics[pos], pos);
    var id := DatasourceFor(env, machine, metrics[pos]).id;
    HeldIdsAppend(graphs, g);
    assert HeldIds(graphs + [g]) == HeldIds(graphs) + {id};
    var rest := FreshFrom(env, machine, metrics, pos + 1, HeldIds(graphs) + {id});
    assert FreshFrom(env, machine, metrics, pos, HeldIds(graphs)) == [pos] + rest;
    assert ([pos] + rest)[1..] == rest;
    assert GraphsAt(env, machine, metrics, [pos] + rest) == [g] + GraphsAt(env, machine, metrics, rest);
    ConcatAssoc(graphs, [g], GraphsAt(env, machine, metrics, rest));
  }

  /** Each graph a pass appends is the one created for some visited metric,
      and holds one datasource that no graph before it held. */
  lemma {:induction false} AddedGraph(env: Env, machine: Machine, metrics: seq<Metric>, pos: nat, graphs: seq<Graph>, i: nat)
    requires pos <= |metrics|
    requires |graphs| <= i < |AddGraphs(env, machine, metrics, pos, graphs)|
    ensures var r := AddGraphs(env, machine, metrics, pos, graphs);
            CreatedFor(env, machine, metrics, pos, r[i]) && AddsDatasource(r, i)
    decreases |metrics| - pos
  {
    var r := AddGraphs(env, machine, metrics, pos, graphs);
    assert pos < |metrics|;
    var next := Visit(env, machine, metrics[pos], pos, graphs);
    assert r == AddGraphs(env, machine, metrics, pos + 1, next);
    if i < |next| {
      var g := NewGraph(env, machine, metrics[pos], pos);
      assert next == graphs + [g];
      assert r[..|next|] == next;
      assert r[i] == g && r[..i] == graphs;
      assert g.datasources == [DatasourceFor(env, machine, metrics[pos])];
      assert CreatedFor(env, machine, metrics, pos, g);
    } else {
      AddedGraph(env, machine, metrics, pos + 1, next, i);
    }
  }

  lemma WantedIdsAll(env: Env, machine: Machine, metrics: seq<Metric>)
    ensures WantedIds(env, machine, metrics, 0) == set m | m in metrics :: DatasourceFor(env, machine, m).id
  {
    forall m | m in metrics
      ensures DatasourceFor(env, machine, m).id in WantedIds(env, machine, metrics, 0)
    {
      var k :| 0 <= k < |metrics| && metrics[k] == m;
    }
  }

  lemma AddedGraphs(env: Env, machine: Machine, metrics: seq<Metric>, graphs: seq<Graph>, gs: seq<Graph>)
    requires gs == AddGraphs(env, machine, metrics, 0, graphs)
    ensures forall i :: |graphs| <= i < |gs| ==>
      CreatedFor(env, machine, metrics, 0, gs[i]) && AddsDatasource(gs, i)
  {
    forall i | |graphs| <= i < |gs|
      ensures CreatedFor(env, machine, metrics, 0, gs[i]) && AddsDatasource(gs, i)
    {
      AddedGraph(env, machine, metrics, 0, graphs, i);
    }
  }

  /** The stream calls of a pass that added `added` graphs: one `stop` per
      added graph, and one `start`, last, exactly when the stream was
      streaming and some graph was added; nothing else. */
  predicate StreamDiscipline(calls: seq<Call>, added: nat, wasStreaming: bool)
  {
    && multiset(calls)[StopStream] == added
    && multiset(calls)[StartStream] == (if wasStreaming && added > 0 then 1 else 0)
    && (StartStream in calls ==> calls[|calls| - 1] == StartStream)
    && (calls == [] <==> added == 0)
    && (forall c :: c in calls ==> c == StopStream || c == StartStream)
  }

  /** The stream calls `_updateGraphs` makes when it adds `added` graphs: one
      `stop` per added graph, then one `start` if the stream was streaming. */
  function StreamCalls(added: nat, wasStreaming: bool): (calls: seq<Call>)
    ensures multiset(calls)[StopStream] == added
    ensures multiset(calls)[StartStream] == (if wasStreaming && added > 0 then 1 else 0)
    ensures forall c :: c in calls ==> c == StopStream || c == StartStream
    ensures StartStream in calls ==> calls[|calls| - 1] == StartStream
    ensures added == 0 ==> calls == []
    ensures StreamDiscipline(calls, added, wasStreaming)
  {
    if added == 0 then []
    else if added == 1 then [StopStream] + (if wasStreaming then [StartStream] else [])
    else [StopStream] + StreamCalls(added - 1, wasStreaming)
  }

  /** The result of one reconciliation pass: the new graphs and the calls made
      on the graphs controller's stream. */
  datatype Pass = Pass(graphs: seq<Graph>, calls: seq<Call>)

  /** `_updateGraphs` for the view's `machine`, `metrics` and `graphs`, with
      `wasStreaming` the stream's state at entry. */
  function UpdateGraphs(env: Env, machine: Machine, metrics: seq<Metric>, graphs: seq<Graph>, wasStreaming: bool): (r: Pass)
    ensures |graphs| <= |r.graphs| && r.graphs[..|graphs|] == graphs
    ensures forall m :: m in metrics ==> DatasourceFor(env, machine, m).id in HeldIds(r.graphs)
    ensures HeldIds(r.graphs) == HeldIds(graphs) + set m | m in metrics :: DatasourceFor(env, machine, m).id
    ensures forall i :: |graphs| <= i < |r.graphs| ==>
      CreatedFor(env, machine, metrics, 0, r.graphs[i]) && AddsDatasource(r.graphs, i)
    ensures DisjointGraphs(graphs) ==> DisjointGraphs(r.graphs)
    // stream discipline
    ensures StreamDiscipline(r.calls, |r.graphs| - |graphs|, wasStreaming)
    ensures multiset(r.calls)[StopStream] == |r.graphs| - |graphs|
    ensures StartStream in r.calls <==> wasStreaming && |r.graphs| > |graphs|
    ensures r.calls == [] <==> |r.graphs| == |graphs|
    ensures forall c :: c in r.calls ==> c == StopStream || c == StartStream
  {
    var gs := AddGraphs(env, machine, metrics, 0, graphs);
    PassGraphs(env, machine, metrics, graphs, gs);
    var calls := StreamCalls(|gs| - |graphs|, wasStreaming);
    Pass(gs, calls)
  }

  /** What one pass does to the graphs. */
  lemma PassGraphs(env: Env, machine: Machine, metrics: seq<Metric>, graphs: seq<Graph>, gs: seq<Graph>)
    requires gs == AddGraphs(env, machine, metrics, 0, graphs)
    ensures forall m :: m in metrics ==> DatasourceFor(env, machine, m).id in HeldIds(gs)
    ensures HeldIds(gs) == HeldIds(graphs) + set m | m in metrics :: DatasourceFor(env, machine, m).id
    ensures forall i :: |graphs| <= i < |gs| ==>
      CreatedFor(env, machine, metrics, 0, gs[i]) && AddsDatasource(gs, i)
    ensures DisjointGraphs(graphs) ==> DisjointGraphs(gs)
  {
    WantedIdsAll(env, machine, metrics);
    AddedGraphs(env, machine, metrics, graphs, gs);
    if DisjointGraphs(graphs) {
      assert gs[..|graphs|] == graphs;
      DisjointAfterAdding(gs, |graphs|);
    }
  }

  /** A pass appends exactly one graph for each metric that is the first with
      a datasource id no graph holds yet, in metric order, each created from
      that metric and its position. */
  lemma UpdateGraphsExact(env: Env, machine: Machine, metrics: seq<Metric>, graphs: seq<Graph>, wasStreaming: bool)
    ensures UpdateGraphs(env, machine, metrics, graphs, wasStreaming).graphs
         == graphs + GraphsAt(env, machine, metrics, FreshFrom(env, machine, metrics, 0, HeldIds(graphs)))
  {
    AddGraphsExact(env, machine, metrics, 0, graphs);
  }

  /** A pass over metrics whose datasources are all held adds nothing. */
  lemma {:induction false} NothingToAdd(env: Env, machine: Machine, metrics: seq<Metric>, pos: nat, graphs: seq<Graph>)
    requires pos <= |metrics|
    requires forall k :: pos <= k < |metrics| ==> DatasourceFor(env, machine, metrics[k]).id in HeldIds(graphs)
    ensures AddGraphs(env, machine, metrics, pos, graphs) == graphs
    decreases |metrics| - pos
  {
    if pos < |metrics| {
      NothingToAdd(env, machine, metrics, pos + 1, graphs);
    }
  }

  /** Reconciliation is idempotent: a second pass over unchanged metrics
      appends no graph and leaves the stream alone. */
  lemma ReconcileIdempotent(env: Env, machine: Machine, metrics: seq<Metric>, graphs: seq<Graph>, s1: bool, s2: bool)
    ensures var first := UpdateGraphs(env, machine, metrics, graphs, s1).graphs;
            UpdateGraphs(env, machine, metrics, first, s2) == Pass(first, [])
  {
    var first := UpdateGraphs(env, machine, metrics, graphs, s1).graphs;
    NothingToAdd(env, machine, metrics, 0, first);
  }

  /** The datasources of `metrics[pos..]` are pairwise distinct. */
  predicate DistinctDatasources(env: Env, machine: Machine, metrics: seq<Metric>, pos: nat)
  {
    forall j, k :: pos <= j < k < |metrics| ==>
      DatasourceFor(env, machine, metrics[j]).id != DatasourceFor(env, machine, metrics[k]).id
  }

  lemma ConcatAssoc<T>(a: seq<T>, b: seq<T>, c: seq<T>)
    ensures a + b + c == a + (b + c)
  {
  }

  /** The graphs created, in order, for the metrics at positions `pos..`. */
  function CreatedFrom(env: Env, machine: Machine, metrics: seq<Metric>, pos: nat): (r: seq<Graph>)
    requires pos <= |metrics|
    ensures |r| == |metrics| - pos
    ensures forall j :: 0 <= j < |r| ==> r[j] == NewGraph(env, machine, metrics[pos + j], pos + j)
    decreases |metrics| - pos
  {
    if pos == |metrics| then []
    else [NewGraph(env, machine, metrics[pos], pos)] + CreatedFrom(env, machine, metrics, pos + 1)
  }

  /** Adding the graph for the metric at `pos` holds none of the later
      metrics' datasources, when those are distinct. */
  lemma StillNotHeld(env: Env, machine: Machine, metrics: seq<Metric>, pos: nat, graphs: seq<Graph>)
    requires pos < |metrics|
    requires DistinctDatasources(env, machine, metrics, pos)
    requires forall k :: pos <= k < |metrics| ==> DatasourceFor(env, machine, metrics[k]).id !in HeldIds(graphs)
    ensures forall k :: pos + 1 <= k < |metrics| ==>
      DatasourceFor(env, machine, metrics[k]).id !in HeldIds(graphs + [NewGraph(env, machine, metrics[pos], pos)])
  {
    HeldIdsAppend(graphs, NewGraph(env, machine, metrics[pos], pos));
    forall k | pos + 1 <= k < |metrics|
      ensures DatasourceFor(env, machine, metrics[k]).id != DatasourceFor(env, machine, metrics[pos]).id
    {
    }
  }

  /** When no visited metric's datasource is held yet and the datasources are
      pairwise distinct, the pass creates exactly one graph per metric, in
      metric order, each from its metric and position. */
  lemma {:induction false} OneGraphPerMetric(env: Env, machine: Machine, metrics: seq<Metric>, pos: nat, graphs: seq<Graph>)
    requires pos <= |metrics|
    requires DistinctDatasources(env, machine, metrics, pos)
    requires forall k :: pos <= k < |metrics| ==> DatasourceFor(env, machine, metrics[k]).id !in HeldIds(graphs)
    ensures AddGraphs(env, machine, metrics, pos, graphs) == graphs + CreatedFrom(env, machine, metrics, pos)
    decreases |metrics| - pos
  {
    if pos < |metrics| {
      var g := NewGraph(env, machine, metrics[pos], pos);
      var next := Visit(env, machine, metrics[pos], pos, graphs);
      assert next == graphs + [g];
      HeldIdsAppend(graphs, g);
      StillNotHeld(env, machine, metrics, pos, graphs);
      OneGraphPerMetric(env, machine, metrics, pos + 1, next);
      var rest := CreatedFrom(env, machine, metrics, pos + 1);
      assert CreatedFrom(env, machine, metrics, pos) == [g] + rest;
      ConcatAssoc(graphs, [g], rest);
    } else {
      assert graphs + [] == graphs;
    }
  }
}
